=== FILE: README.md ===
# Autumn: bootstrap and Scorekeeper, modelled in Dafny

Autumn is a Ruby framework for IRC bots. This project models two of its pieces
as pure functions over immutable data and proves what they promise.

- **`Autumn::Genesis`**, the bootstrap (`libs/genesis.rb`), is a state
  machine over abstract environment facts. The facts are:
  - whether `global.yml`, the season directory and each season file exist and parse;
  - the `SEASON` environment value;
  - the daemon files;
  - the entries of `leaves/`;
  - which code-loading steps raise;
  - the successive answers of `Foliater.instance.alive?`.

  `Genesis.Boot` runs the lifecycle: `load_pre_config_files` (from
  `initialize`), then the nine phases of `boot!`. It stops at the first phase
  that raises.
- **The Scorekeeper controller** (`leaves/scorekeeper/controller.rb`) covers
  four things:
  - the dispatch of `!points`;
  - the per-receiver sums of `points` and their ranking in `totals`;
  - the decision tables of `parse_change` and `parse_history`.

  A channel's scores are an in-memory sequence of `Score(giver, receiver,
  change, time)` records.

## Modules

| file | module | contents |
|---|---|---|
| base.dfy | `Base` | `Option`, `Result` |
| config.dfy | `Config` | YAML-like values, scopes, Ruby truthiness, lookup with a `nil` default |
| phases.dfy | `Phases` | the lifecycle order and each phase's declared prerequisites |
| genesis.dfy | `Genesis` | the phases, `Run`/`Boot`, the boot invariant and its consequences |
| decimal.dfy | `Decimal` | signed decimal numerals and `String#to_i` on them |
| sorting.dfy | `Sorting` | a descending insertion sort with permutation and sum preserved |
| scores.dfy | `Scores` | people, scores and channels; `points`, `totals`, the score scopes |
| commands.dfy | `CommandSyntax` | the two command regular expressions and the dispatch |
| scorekeeper.dfy | `Scorekeeper` | `parse_change`, `parse_history`, `points_command` |

### Modelling decisions

- **Files.** A configuration file is `Absent` (missing, `Errno::ENOENT`),
  `Unreadable` (present but not openable: any other `SystemCallError`),
  `Unparsable`, or `Parsed(content)`. The rescue around global.yml catches
  every `SystemCallError`, so an unreadable global.yml is reported as
  missing. The bare rescue around season.yml catches every `StandardError`,
  so an unreadable season.yml is skipped like a missing or broken one. The
  daemon files, database.yml, stems.yml and leaves.yml rescue
  `Errno::ENOENT` at most, so for them an unreadable file fails just as a
  broken one does.
- **Non-standard exceptions.** The bare `rescue` around the Foliater catches
  only `StandardError`. `Env.foliaterFault` says which kind `Foliater.load`
  or the wait raises. `Standard` is rescued into the fatal log. `Uncaught`
  stands for a `LoadError` or `SyntaxError` from leaf code, an `Interrupt` or
  a `SystemExit`, and it escapes the phase and stops the bootstrap.
- **Raising steps.** A `require`, `Bundler.require`, `Logger.new`,
  `Daemon.new`, `DataMapper.setup` or `Foliater.load` that raises is
  modelled by naming its phase in `Env.raising`.
- **Out-of-order guard.** `Run` refuses a phase whose declared
  prerequisites have not completed. The Ruby code has no such check.
  `BootFollowsLifecycle` proves the refusal never happens in the fixed order.
- **Daemon names.** A daemon is named `File.basename(file, '.yml')`, with no
  camel-casing.
- **Season value.** A season that is not a string makes
  `load_post_config_files` raise, since `nil.to_sym` fails there. Elsewhere,
  interpolating a non-string is modelled as the empty string.
- **Log level.** The level is looked up only among Logger's severity
  constants (`DEBUG` … `UNKNOWN`). `Logger.const_get` of any other name, or
  `upcase` of a non-string, falls back to `INFO`.
- **Command regexes.** The two regexes are matched at the start of the
  message. `$` is the first line break or the end.
  - The nick sub-patterns are abstract predicates. The history pattern uses
    the stem's `nick_regex` and the change pattern uses the leaf's.
  - Of the nick prefixes after which a pattern matches, the longest is taken.
- **Sort order.** `totals` sorts with a comparator that is not stable, so
  the model promises only a permutation in non-increasing order.
- **Recording a change.** `change_points` is not part of this model. An
  authorized change is taken to record one score, from the giver to the
  receiver, in the channel the command came from (`Scorekeeper.RecordChange`).
- **Score scopes.** `given_to`, `between` (inclusive), `given_by` and
  `newest_first.all(:limit => 5)` are modelled as filters plus "the five
  newest". Their ORM definitions are not part of this model.

## Model

| member | source | states |
|---|---|---|
| Phases.LifecycleIsWellOrdered | libs/genesis.rb:19-37 | the lifecycle is `load_pre_config_files` then the nine `boot!` phases in source order; no phase repeats, and each declared PREREQS phase comes strictly earlier |
| Genesis.LoadCode | libs/genesis.rb:109-119 | a phase that only loads code fails exactly when one of its loads raises, and otherwise leaves the configuration unchanged |
| Genesis.LoadPostConfigFiles | libs/genesis.rb:71-89 | raises when the global season is not a string (`to_sym` on nil) or a load fails; otherwise changes nothing |
| Genesis.LoadGlobalSettings | libs/genesis.rb:43-51 | a missing or unopenable global.yml (any `SystemCallError`) raises the same error; a broken one raises another; once loaded, every key of global.yml is in the global scope, `:root` is the root, and the `SEASON` value, when set, overrides the file's season |
| Genesis.LoadSeasonSettings | libs/genesis.rb:95-103 | raises exactly when the season has no directory; season.yml is merged when it parses, and a missing or broken season.yml changes nothing |
| Genesis.LevelNamed | libs/genesis.rb:128 | finds the severity constant with exactly this name, and only such a constant |
| Genesis.Upcase | libs/genesis.rb:128 | upper-cases every character in place and keeps the length |
| Genesis.LogLevel | libs/genesis.rb:127-132 | the level is the severity whose name is the upcased `logging` setting; with no such severity it is INFO |
| Genesis.LogHistory | libs/genesis.rb:126 | `log_history` when it is truthy, else 10 |
| Genesis.InitSystemLogger | libs/genesis.rb:125-135 | the system log is `log/<season>.log` under the root, rotated at 1 MiB, kept per `LogHistory`, at the level `LogLevel` gives; only a failing `Logger.new` raises |
| Genesis.Basename | libs/genesis.rb:145 | the daemon name followed by `.yml` is the file name |
| Genesis.Glob | libs/genesis.rb:143 | keeps exactly the non-hidden files whose names end in `.yml`, each as often as it is listed, and no other |
| Genesis.GlobOne | libs/genesis.rb:143 | a single entry is picked exactly when its name matches the pattern |
| Genesis.GlobKeepsOrder | libs/genesis.rb:143 | the picked files keep directory order: the glob of two runs of entries is the glob of the first followed by the glob of the second |
| Genesis.LoadDaemons | libs/genesis.rb:142-147 | one daemon per file, in order, named after the file without `.yml`, configured by its content; an unloadable file raises, naming the first such file in glob order, after every earlier file loaded |
| Genesis.LoadDaemonInfo | libs/genesis.rb:142-147 | the daemon phase succeeds exactly when every globbed file loads, and it records those daemons |
| Genesis.LoadDatabases | libs/genesis.rb:159-173 | with no database.yml only `no_database` is set; otherwise the datastores are the top-level entries of database.yml, and a broken or non-mapping file raises |
| Genesis.DefaultLeaves | libs/genesis.rb:193-198 | a name is a key exactly when some non-hidden directory under `leaves/` camel-cases to it, and it maps to `{'class' => name}` |
| Genesis.LeafConfig | libs/genesis.rb:189-199 | leaves.yml when it parses; the default from `leaves/` when it is missing; an error when it is broken or `leaves/` cannot be listed |
| Genesis.Supervise | libs/genesis.rb:202-207 | the wait ends at the first answer `false` from `alive?`, after only `true` answers; it never ends while every answer is `true` |
| Genesis.LaunchFoliater | libs/genesis.rb:183-210 | a missing stems.yml is rescued as that error; Foliater.load runs exactly when stems.yml and the leaf config load, with both; the wait runs exactly when `invoke` is set; a failure in Foliater.load or the wait escapes exactly when it is not a `StandardError`, and is rescued otherwise with the load call already made on record; a failure before the call records none |
| Genesis.InvokeFoliater | libs/genesis.rb:182-211 | the Foliater phase raises exactly when a prerequisite is missing or the launch raised something other than a `StandardError`; otherwise it appends a rescued error to the fatal log exactly once and otherwise nothing, and changes nothing else |
| Genesis.Run | libs/genesis.rb:27-37 | a run either completes every phase given, in order, or stops at one phase with exactly the phases before it completed |
| Genesis.PhaseKeepsInvariant | libs/genesis.rb:43-211 | a phase whose prerequisites completed never finds needed state missing, keeps the boot invariant, and the Foliater phase raises only an exception that is not a `StandardError` |
| Genesis.LifecycleRun | libs/genesis.rb:27-37 | from any prefix of the lifecycle the rest of the run keeps the invariant and never stops for ordering, and stops at the Foliater phase only for an exception that is not a `StandardError` |
| Genesis.RunPhase | libs/genesis.rb:27-37 | one call of `boot!`: no phase rewrites the record of completed phases, and only the Foliater phase changes the Foliater record or the fatal log |
| Genesis.BootFollowsLifecycle | libs/genesis.rb:19-37 | `Genesis.Boot`, the model of `Genesis.new.boot!(invoke)`: a bootstrap completes the whole lifecycle, or stops at one phase that raised with exactly the earlier phases completed; prerequisites are never violated |
| Genesis.FoliaterErrorsAreContained | libs/genesis.rb:208-210 | a `StandardError` raised while invoking the Foliater never escapes, and only a non-standard one stops the bootstrap there; a completed bootstrap holds one fatal record exactly when the Foliater phase was rescued, and a rescued run records the Foliater.load call exactly when the failure came from the load or the wait |
| Genesis.SupervisionFollowsInvoke | libs/genesis.rb:201-207 | after a launch the bootstrap waits exactly when `invoke` is set, and a wait that ended did so at the first `false` from `alive?` |
| Genesis.SeasonOverrideHolds | libs/genesis.rb:49-50 | a completed bootstrap used the season `SEASON` names when set, global.yml's otherwise, with `:root` set |
| Genesis.NoDatabaseFlagHolds | libs/genesis.rb:160-172 | in a completed bootstrap `no_database` holds exactly when the season has no database.yml; otherwise one datastore per top-level key |
| Genesis.MissingStemsYmlIsLogged | libs/genesis.rb:184-188 | a season without stems.yml never stops the bootstrap in the Foliater phase; a completed bootstrap of such a season logged that error once, and neither Foliater.load nor the wait ran |
| Genesis.MissingGlobalYmlAborts | libs/genesis.rb:44-48 | without a readable global.yml (missing, or any other `SystemCallError` on opening) the bootstrap stops in its first `boot!` phase, with only the pre-config files loaded |
| Genesis.MissingSeasonDirAborts | libs/genesis.rb:96-97 | a season without a directory stops the bootstrap in the season phase, before the libraries, logger, daemons, databases or Foliater |
| Decimal.ParseSigned | leaves/scorekeeper/controller.rb:21-22 | `to_i` of `[+-]\d+`: the sign of the result is the written sign and its magnitude is the digits' value |
| Decimal.ParseShowSigned | leaves/scorekeeper/controller.rb:21-22 | every integer written as a signed numeral is read back as itself |
| Sorting.SortDesc | leaves/scorekeeper/controller.rb:38 | the result is a permutation of the input, ordered non-increasing by the key, with the same key sum |
| Scores.ChannelScores | leaves/scorekeeper/controller.rb:32-33 | the scores of the first channel with this server and name; none when the channel does not exist yet |
| Scores.RecordScore | leaves/scorekeeper/controller.rb:32-33 | recording a score appends it to exactly that channel's scores, creating the channel when missing, and leaves every other channel's scores as they were |
| Scores.FirstNamed | leaves/scorekeeper/controller.rb:65 | the first channel with the name, on any server, in store order; none exactly when no channel has the name |
| Scores.NamedIsServerChannel | leaves/scorekeeper/controller.rb:32-33 | when the first channel with a name is on this server, `parse_history` and `points` read the same channel's scores |
| Scores.Bump | leaves/scorekeeper/controller.rb:34 | adds the delta to one name's entry (0 by default) and leaves every other entry alone |
| Scores.Points | leaves/scorekeeper/controller.rb:31-35 | one entry per receiver name, exactly the names that received a score, each the sum of the changes they received; all entries sum to the sum of all changes |
| Scores.Totals | leaves/scorekeeper/controller.rb:37-39 | a permutation of the points entries in non-increasing order of total, with per-receiver sums and the overall sum conserved |
| Scores.TotalsAfterScore | leaves/scorekeeper/controller.rb:31-39 | one more score adds its receiver to the ranked names, if new with its change as total, and moves that receiver's total by the change and nobody else's |
| Scores.Select | leaves/scorekeeper/controller.rb:75-86 | keeps exactly the scores the scope admits, each as often as in the original, and no other |
| Scores.Newest | leaves/scorekeeper/controller.rb:75 | at most the limit, taken from the pool, newest first, each copy at most as often as in the pool; a copy is left out only when the limit is reached with scores at least as new |
| CommandSyntax.HistoryAt | leaves/scorekeeper/controller.rb:18 | the history tail after a nick: a match consumes at least one whitespace character and `history`, and captures the rest of the line after any further whitespace |
| CommandSyntax.ChangeAt | leaves/scorekeeper/controller.rb:21 | the change tail after a nick: a match consumes at least one whitespace character, a sign and at least one digit, and captures the signed number and the rest of the line after any further whitespace |
| CommandSyntax.HistoryAtMatchesShape | leaves/scorekeeper/controller.rb:18 | after a nick, the history tail matches exactly when a run of whitespace and the word `history` follow |
| CommandSyntax.ChangeAtMatchesShape | leaves/scorekeeper/controller.rb:21 | after a nick, the change tail matches exactly when whitespace, a sign and at least one digit follow |
| CommandSyntax.LongestNick | leaves/scorekeeper/controller.rb:18-21 | the longest nick prefix after which the pattern matches; none exactly when no prefix works |
| CommandSyntax.Classify | leaves/scorekeeper/controller.rb:15-27 | no text means totals; a non-empty message is exactly one of history (tried first), change or usage; the captures are the nick, the argument, the delta of `[+-]\d+` and the note |
| CommandSyntax.ChangeMessageRoundTrip | leaves/scorekeeper/controller.rb:21-22 | a nick, a space and any written delta is read back as a change of exactly that delta for that nick |
| CommandSyntax.HistoryMessageRoundTrip | leaves/scorekeeper/controller.rb:18-19 | a nick, ` history ` and a space-free argument is read back as a history request for that nick and argument |
| Scorekeeper.Resolve | leaves/scorekeeper/controller.rb:44-49 | a known person stays; an unknown one is created under open scoring and stays nil otherwise |
| Scorekeeper.ParseChange | leaves/scorekeeper/controller.rb:41-59 | creation happens only under open scoring, once per missing person; `change_points` is called once, with the parsed delta, exactly when authorized; a refusal names the receiver, or the raw victim when there is none |
| Scorekeeper.RecordChange | leaves/scorekeeper/controller.rb:55 | an authorized change adds one score, from giver to receiver with the delta, to the scores of the channel it was given in, and to no other channel |
| Scorekeeper.AppliedChangeMovesTotals | leaves/scorekeeper/controller.rb:50-58 | after an authorized change is recorded, the channel's `!points` totals list the same names plus the receiver, the receiver's total moves by the delta (starting at the delta when new) and every other total is unchanged |
| Scorekeeper.HistoryScores | leaves/scorekeeper/controller.rb:73-87 | at most five of the wanted scores, newest first, each copy at most as often as stored; a copy of a wanted score is left out only when five at least as new are shown |
| Scorekeeper.DateOf | leaves/scorekeeper/controller.rb:62 | an empty argument names no date even when `parse_date` would read one; otherwise the date is the one `parse_date` gives |
| Scorekeeper.HistoryScope | leaves/scorekeeper/controller.rb:73-87 | the scope admits exactly the wanted scores: received by the subject, within the date's range or given by the named giver |
| Scorekeeper.ParseHistory | leaves/scorekeeper/controller.rb:61-91 | an unknown subject gives no history; an unknown giver gives no giver history; otherwise at most five of the channel's wanted scores, newest first, each copy at most as often as stored, leaving a copy out only when five at least as new are shown |
| Scorekeeper.PointsCommand | leaves/scorekeeper/controller.rb:15-27 | the reply branch is exactly the dispatch; totals are the channel's ranked per-receiver sums; history and change get the captured parts |

## Left out

- YAML parsing, `File`/`Dir` access, `require`, `load` and `Bundler.require` are not modelled. Their outcomes are inputs: `Doc` values, directory listings and `Env.raising`.
- Any partial effect of a phase that raises is not modelled. The state is the one before the phase.
- Genesis.LaunchFoliater: for a failure rescued inside Foliater.load or the wait, the record keeps the call to Foliater.load but not how far the load or the wait got. Whether stems had started is not visible: the Foliater is not part of this model.
- The Speciator's merge of scopes is taken as map override. A season lookup falls back to the global scope. `libs/speciator.rb` is not part of this model.
- Threads and `Thread.stop` are not modelled. The wait loop is reduced to its exit condition over the successive answers of `alive?`.
- Logger and LogFacade internals, `Daemon.new`, `DataMapper.setup` and `Foliater.load` are not modelled. Their calls are recorded as values.
- The message printed for an unknown log level is not modelled (console output).
- `Logger::VERSION` and similar constants that `const_get` could also find are not modelled. Only the severity constants are.
- `camelcase`, `nick_regex`, `find_person`, `find_in_channel`, `authorized?`, `parse_date` and `find_range` are uninterpreted parameters. Their code is not visible.
- Genesis.DefaultLeaves: when two directories camel-case to the same name, one entry results. The model keeps the earliest in directory order, and Ruby keeps the last; both give the same value.
- `change_points` is not modelled beyond the record of its one call and the single score `Scorekeeper.RecordChange` takes it to store. Its code is not part of this model.
- Scorekeeper.AppliedChangeMovesTotals: requires both giver and receiver to exist. Under closed scoring an authorized change with a nil person reaches `change_points`, whose handling of nil is not part of this model.
- `render` and `var` are not modelled. The template variables are the fields of the outcome datatypes.
- `about_command` is not modelled. Its body is empty.
- The channel that `Channel.find_or_create` creates as a side effect is not modelled.
- `parse_history` on a channel that `Channel.named` does not find is not modelled beyond a `ChannelMissing` outcome. The Ruby code raises on `nil.scores` there.
- CommandSyntax.Classify: Ruby's regex engine prefers an alternation's first alternative, not the longest nick. The model assumes the nick pattern's preferred match is the longest one that lets the rest match.
- CommandSyntax.Classify: a line after the first line break is not tried as a separate match. IRC messages contain no line breaks.
- Scores.Newest: when scores tie on time, which of them the database returns is not specified. The model promises only what holds for any choice.

=== FILE: base.dfy ===
/** Small shared vocabulary: an optional value and a success-or-error result. */
module Base {

  /** A value that may be missing; stands for Ruby's `nil` where the source allows it. */
  datatype Option<+T> = None | Some(value: T)

  /** The outcome of an operation that may raise. */
  datatype Result<+R, +E> = Success(value: R) | Failure(error: E)
}

=== FILE: commands.dfy ===
/**
 * How `points_command` reads its message: the history pattern
 * `^(nick)\s+history\s*(.*)$` and the change pattern
 * `^(nick)\s+([\+\-]\d+)\s*(.*)$`, with the nick pattern abstract.
 *
 * A nick pattern is a predicate telling which strings it matches as a whole.
 * Of several nick prefixes after which the rest of the pattern matches, the
 * longest is the one captured.
 */
module CommandSyntax {
  import opened Base
  import opened Decimal

  /** Ruby's `\s`: space, tab, line feed, vertical tab, form feed, carriage return. */
  predicate IsSpace(c: char) {
    c == ' ' || c == '\t' || c == '\n' || c == '\r' || c as int == 11 || c as int == 12
  }

  ghost predicate AllSpaces(s: string) {
    forall i :: 0 <= i < |s| ==> IsSpace(s[i])
  }

  /** The end of the run of whitespace starting at `i` (greedy `\s*`). */
  function SpanSpaces(s: string, i: nat): (j: nat)
    requires i <= |s|
    ensures i <= j <= |s|
    ensures AllSpaces(s[i..j])
    ensures j < |s| ==> !IsSpace(s[j])
    decreases |s| - i
  {
    if i < |s| && IsSpace(s[i]) then SpanSpaces(s, i + 1) else i
  }

  /** The end of the run of digits starting at `i` (greedy `\d*`). */
  function SpanDigits(s: string, i: nat): (j: nat)
    requires i <= |s|
    ensures i <= j <= |s|
    ensures AllDigits(s[i..j])
    ensures j < |s| ==> !IsDigit(s[j])
    decreases |s| - i
  {
    if i < |s| && IsDigit(s[i]) then SpanDigits(s, i + 1) else i
  }

  /** `(.*)$`: the rest of the line from `i`. */
  function LineRest(s: string, i: nat): (r: string)
    requires i <= |s|
    ensures i + |r| <= |s| && r == s[i..i + |r|]
    ensures forall k :: 0 <= k < |r| ==> r[k] != '\n'
    ensures i + |r| < |s| ==> s[i + |r|] == '\n'
    decreases |s| - i
  {
    if i == |s| || s[i] == '\n' then [] else [s[i]] + LineRest(s, i + 1)
  }

  /** A maximal run of whitespace is the only run that ends before a non-space. */
  lemma {:induction false} SpanSpacesExact(s: string, i: nat, j: nat)
    requires i <= j < |s| && AllSpaces(s[i..j]) && !IsSpace(s[j])
    ensures SpanSpaces(s, i) == j
    decreases j - i
  {
    if i < j {
      assert s[i..j][0] == s[i];
      assert s[i + 1..j] == s[i..j][1..];
      SpanSpacesExact(s, i + 1, j);
    }
  }

  // ---------------------------------------------------------------------------
  // The history pattern

  /**
   * Reference shape of a history command: a nick ending at `k`, whitespace up
   * to `j`, then the word `history`. What follows always matches `\s*(.*)$`.
   */
  ghost predicate HistoryShape(m: string, isNick: string -> bool, k: nat, j: nat) {
    k < j && j + 7 <= |m| && isNick(m[..k]) && AllSpaces(m[k..j]) && m[j..j + 7] == "history"
  }

  ghost predicate HistoryForm(m: string, isNick: string -> bool) {
    exists k: nat, j: nat :: HistoryShape(m, isNick, k, j)
  }

  /** The argument captured after a nick ending at `k`, if the history pattern matches there. */
  function HistoryAt(m: string, k: nat): (r: Option<string>)
    requires k <= |m|
    ensures r.Some? ==> var j := SpanSpaces(m, k);
      && k < j && j + 7 <= |m| && m[j..j + 7] == "history"
      && r.value == LineRest(m, SpanSpaces(m, j + 7))
  {
    var j := SpanSpaces(m, k);
    if j == k || j + 7 > |m| || m[j..j + 7] != "history" then None
    else Some(LineRest(m, SpanSpaces(m, j + 7)))
  }

  /** The history pattern matches after the nick `m[..k]` exactly when its reference shape exists there. */
  lemma HistoryAtMatchesShape(m: string, isNick: string -> bool, k: nat)
    requires k <= |m| && isNick(m[..k])
    ensures HistoryAt(m, k).Some? <==> exists j: nat :: HistoryShape(m, isNick, k, j)
  {
    if HistoryAt(m, k).Some? {
      assert HistoryShape(m, isNick, k, SpanSpaces(m, k));
    }
    if j: nat :| HistoryShape(m, isNick, k, j) {
      assert m[j] == m[j..j + 7][0] == 'h';
      SpanSpacesExact(m, k, j);
    }
  }

  // ---------------------------------------------------------------------------
  // The change pattern

  /**
   * Reference shape of a change command: a nick ending at `k`, whitespace up
   * to `j`, a sign at `j` and digits up to `d`.
   */
  ghost predicate ChangeShape(m: string, isNick: string -> bool, k: nat, j: nat, d: nat) {
    && k < j && j + 2 <= d <= |m|
    && isNick(m[..k]) && AllSpaces(m[k..j])
    && (m[j] == '+' || m[j] == '-') && AllDigits(m[j + 1..d])
  }

  ghost predicate ChangeForm(m: string, isNick: string -> bool) {
    exists k: nat, j: nat, d: nat :: ChangeShape(m, isNick, k, j, d)
  }

  /** What the change pattern captures after the nick: the signed numeral and the note. */
  datatype ChangeTail = ChangeTail(numeral: string, note: string)

  function ChangeAt(m: string, k: nat): (r: Option<ChangeTail>)
    requires k <= |m|
    ensures r.Some? ==> var j := SpanSpaces(m, k);
      && k < j < |m| && (m[j] == '+' || m[j] == '-')
      && var d := SpanDigits(m, j + 1);
      && j + 2 <= d
      && r.value == ChangeTail(m[j..d], LineRest(m, SpanSpaces(m, d)))
  {
    var j := SpanSpaces(m, k);
    if j == k || j >= |m| || (m[j] != '+' && m[j] != '-') then None
    else
      var d := SpanDigits(m, j + 1);
      if d == j + 1 then None
      else Some(ChangeTail(m[j..d], LineRest(m, SpanSpaces(m, d))))
  }

  lemma ChangeAtMatchesShape(m: string, isNick: string -> bool, k: nat)
    requires k <= |m| && isNick(m[..k])
    ensures ChangeAt(m, k).Some? <==> exists j: nat, d: nat :: ChangeShape(m, isNick, k, j, d)
  {
    if ChangeAt(m, k).Some? {
      var j := SpanSpaces(m, k);
      assert ChangeShape(m, isNick, k, j, SpanDigits(m, j + 1));
    }
    if j: nat, d: nat :| ChangeShape(m, isNick, k, j, d) {
      SpanSpacesExact(m, k, j);
      assert IsDigit(m[j + 1..d][0]);
    }
  }

  // ---------------------------------------------------------------------------
  // Choosing the nick

  datatype Pattern = HistoryPattern | ChangePattern

  predicate TailMatches(p: Pattern, m: string, k: nat)
    requires k <= |m|
  {
    match p
    case HistoryPattern => HistoryAt(m, k).Some?
    case ChangePattern => ChangeAt(m, k).Some?
  }

  /** The longest nick prefix, no longer than `k`, after which pattern `p` matches. */
  function LongestNick(m: string, isNick: string -> bool, p: Pattern, k: nat): (r: Option<nat>)
    requires k <= |m|
    ensures r.Some? ==> r.value <= k && isNick(m[..r.value]) && TailMatches(p, m, r.value)
    ensures r.Some? ==> forall k' :: r.value < k' <= k ==> !(isNick(m[..k']) && TailMatches(p, m, k'))
    ensures r.None? ==> forall k' :: 0 <= k' <= k ==> !(isNick(m[..k']) && TailMatches(p, m, k'))
    decreases k
  {
    if isNick(m[..k]) && TailMatches(p, m, k) then Some(k)
    else if k == 0 then None
    else LongestNick(m, isNick, p, k - 1)
  }

  // ---------------------------------------------------------------------------
  // points_command's dispatch

  datatype Command =
    | ShowTotals
    | History(subject: string, argument: string)
    | Change(victim: string, delta: int, note: string)
    | Usage

  /**
   * Sorts a message into exactly one branch: no text means totals; otherwise
   * history when the history pattern matches (tried first), change when only
   * the change pattern does, usage when neither does.
   */
  function Classify(msg: Option<string>, stemNick: string -> bool, leafNick: string -> bool): (c: Command)
    ensures c.ShowTotals? <==> msg.None? || msg.value == []
    ensures c.History? <==> msg.Some? && msg.value != [] && HistoryForm(msg.value, stemNick)
    ensures c.Change? <==>
      msg.Some? && msg.value != [] && !HistoryForm(msg.value, stemNick) && ChangeForm(msg.value, leafNick)
    ensures c.Usage? <==>
      msg.Some? && msg.value != [] && !HistoryForm(msg.value, stemNick) && !ChangeForm(msg.value, leafNick)
    ensures c.History? ==> HistoryCaptured(msg.value, stemNick, c.subject, c.argument)
    ensures c.Change? ==> ChangeCaptured(msg.value, leafNick, c.victim, c.delta, c.note)
  {
    if msg.None? || msg.value == [] then ShowTotals
    else
      var m := msg.value;
      match LongestNick(m, stemNick, HistoryPattern, |m|)
      case Some(k) =>
        HistoryFound(m, stemNick, k);
        History(m[..k], HistoryAt(m, k).value)
      case None =>
        HistoryAbsent(m, stemNick);
        match LongestNick(m, leafNick, ChangePattern, |m|)
        case Some(k) =>
          ChangeFound(m, leafNick, k);
          var tail := ChangeAt(m, k).value;
          Change(m[..k], ParseSigned(tail.numeral), tail.note)
        case None =>
          ChangeAbsent(m, leafNick);
          Usage
  }

  /** `subject` and `argument` are what the history pattern captures in `m` after the nick `m[..k]`. */
  ghost predicate HistoryCapture(m: string, isNick: string -> bool, k: nat, j: nat, subject: string, argument: string) {
    HistoryShape(m, isNick, k, j) && subject == m[..k] && argument == LineRest(m, SpanSpaces(m, j + 7))
  }

  ghost predicate HistoryCaptured(m: string, isNick: string -> bool, subject: string, argument: string) {
    exists k: nat, j: nat :: HistoryCapture(m, isNick, k, j, subject, argument)
  }

  /**
   * `victim`, `delta` and `note` are what the change pattern captures in `m`
   * after the nick `m[..k]`, the delta read from the longest signed numeral there.
   */
  ghost predicate ChangeCapture(m: string, isNick: string -> bool, k: nat, j: nat, d: nat,
                                victim: string, delta: int, note: string) {
    && ChangeShape(m, isNick, k, j, d) && victim == m[..k]
    && d == SpanDigits(m, j + 1) && SignedNumeral(m[j..d]) && delta == ParseSigned(m[j..d])
    && note == LineRest(m, SpanSpaces(m, d))
  }

  ghost predicate ChangeCaptured(m: string, isNick: string -> bool, victim: string, delta: int, note: string) {
    exists k: nat, j: nat, d: nat :: ChangeCapture(m, isNick, k, j, d, victim, delta, note)
  }

  lemma HistoryFound(m: string, isNick: string -> bool, k: nat)
    requires k <= |m| && isNick(m[..k]) && HistoryAt(m, k).Some?
    ensures HistoryShape(m, isNick, k, SpanSpaces(m, k))
    ensures HistoryForm(m, isNick)
    ensures HistoryCaptured(m, isNick, m[..k], HistoryAt(m, k).value)
  {
    assert HistoryCapture(m, isNick, k, SpanSpaces(m, k), m[..k], HistoryAt(m, k).value);
  }

  lemma HistoryAbsent(m: string, isNick: string -> bool)
    requires LongestNick(m, isNick, HistoryPattern, |m|).None?
    ensures !HistoryForm(m, isNick)
  {
    forall k: nat, j: nat | HistoryShape(m, isNick, k, j)
      ensures false
    {
      HistoryAtMatchesShape(m, isNick, k);
    }
  }

  lemma ChangeFound(m: string, isNick: string -> bool, k: nat)
    requires k <= |m| && isNick(m[..k]) && ChangeAt(m, k).Some?
    ensures SpanSpaces(m, k) < |m|
    ensures var j := SpanSpaces(m, k); var d := SpanDigits(m, j + 1);
      && ChangeShape(m, isNick, k, j, d)
      && SignedNumeral(m[j..d])
      && ChangeAt(m, k).value == ChangeTail(m[j..d], LineRest(m, SpanSpaces(m, d)))
    ensures ChangeForm(m, isNick)
    ensures ChangeCaptured(m, isNick, m[..k], ParseSigned(ChangeAt(m, k).value.numeral), ChangeAt(m, k).value.note)
  {
    var j := SpanSpaces(m, k);
    var d := SpanDigits(m, j + 1);
    assert ChangeShape(m, isNick, k, j, d);
    assert m[j..d][1..] == m[j + 1..d];
    var tail := ChangeAt(m, k).value;
    assert ChangeCapture(m, isNick, k, j, d, m[..k], ParseSigned(tail.numeral), tail.note);
  }

  lemma ChangeAbsent(m: string, isNick: string -> bool)
    requires LongestNick(m, isNick, ChangePattern, |m|).None?
    ensures !ChangeForm(m, isNick)
  {
    forall k: nat, j: nat, d: nat | ChangeShape(m, isNick, k, j, d)
      ensures false
    {
      ChangeAtMatchesShape(m, isNick, k);
    }
  }

  // ---------------------------------------------------------------------------
  // Reading back what a user types

  predicate NoSpaces(s: string) {
    forall i :: 0 <= i < |s| ==> !IsSpace(s[i])
  }

  /** A nick pattern that, like IRC nicknames, never covers whitespace. */
  ghost predicate NickRejectsSpaces(isNick: string -> bool) {
    forall s :: isNick(s) ==> NoSpaces(s)
  }

  /** Two space-free prefixes that are each followed by whitespace are the same prefix. */
  lemma SpaceEndsNick(m: string, p: nat, k: nat)
    requires p < |m| && k < |m| && IsSpace(m[p]) && IsSpace(m[k])
    requires NoSpaces(m[..p]) && NoSpaces(m[..k])
    ensures k == p
  {
  }

  /** A run of whitespace cannot reach past a character that is not whitespace. */
  lemma SpacesStopAt(m: string, k: nat, j: nat, q: nat)
    requires k <= j <= |m| && k <= q < |m| && AllSpaces(m[k..j]) && !IsSpace(m[q])
    ensures j <= q
  {
  }

  /** When every change shape of `m` has the same nick end and sign, the captures are determined by them. */
  lemma ChangeCaptureAt(m: string, leafNick: string -> bool, k0: nat, j0: nat, victim: string, delta: int, note: string)
    requires ChangeCaptured(m, leafNick, victim, delta, note)
    requires forall k: nat, j: nat, d: nat :: ChangeShape(m, leafNick, k, j, d) ==> k == k0 && j == j0
    ensures j0 < |m| && SignedNumeral(m[j0..SpanDigits(m, j0 + 1)])
    ensures var d := SpanDigits(m, j0 + 1);
      victim == m[..k0] && delta == ParseSigned(m[j0..d]) && note == LineRest(m, SpanSpaces(m, d))
  {
    var k: nat, j: nat, d: nat :| ChangeCapture(m, leafNick, k, j, d, victim, delta, note);
    assert ChangeShape(m, leafNick, k, j, d);
  }

  /** When every history shape of `m` has the same nick end and word start, the captures are determined by them. */
  lemma HistoryCaptureAt(m: string, stemNick: string -> bool, k0: nat, j0: nat, subject: string, argument: string)
    requires HistoryCaptured(m, stemNick, subject, argument)
    requires forall k: nat, j: nat :: HistoryShape(m, stemNick, k, j) ==> k == k0 && j == j0
    ensures j0 + 7 <= |m| && k0 <= |m|
    ensures subject == m[..k0] && argument == LineRest(m, SpanSpaces(m, j0 + 7))
  {
    var k: nat, j: nat :| HistoryCapture(m, stemNick, k, j, subject, argument);
    assert HistoryShape(m, stemNick, k, j);
  }

  /** A run of digits reaching the end of the text is spanned completely. */
  lemma {:induction false} SpanDigitsToEnd(s: string, i: nat)
    requires i <= |s| && AllDigits(s[i..])
    ensures SpanDigits(s, i) == |s|
    decreases |s| - i
  {
    if i < |s| {
      assert s[i..][0] == s[i];
      assert s[i + 1..] == s[i..][1..];
      SpanDigitsToEnd(s, i + 1);
    }
  }

  /** In `v`, a space, and a signed numeral, the only nick end followed by whitespace is after `v`. */
  lemma ChangeMessageShapes(v: string, num: string, isNick: string -> bool)
    requires NickRejectsSpaces(isNick) && NoSpaces(v) && SignedNumeral(num)
    ensures var m := v + " " + num;
      forall k: nat, j: nat :: k < j <= |m| && isNick(m[..k]) && AllSpaces(m[k..j]) ==> k == |v| && j == |v| + 1
  {
    var m := v + " " + num;
    var p := |v|;
    assert m[..p] == v && m[p] == ' ' && m[p + 1] == num[0];
    forall k: nat, j: nat | k < j <= |m| && isNick(m[..k]) && AllSpaces(m[k..j])
      ensures k == p && j == p + 1
    {
      assert IsSpace(m[k..j][0]);
      SpaceEndsNick(m, p, k);
      SpacesStopAt(m, k, j, p + 1);
    }
  }

  lemma ChangeMessageHasNoHistory(v: string, num: string, stemNick: string -> bool)
    requires NickRejectsSpaces(stemNick) && NoSpaces(v) && SignedNumeral(num)
    ensures !HistoryForm(v + " " + num, stemNick)
  {
    var m := v + " " + num;
    ChangeMessageShapes(v, num, stemNick);
    assert m[|v| + 1] == num[0];
  }

  lemma ChangeMessageHasOneChange(v: string, num: string, leafNick: string -> bool)
    requires NickRejectsSpaces(leafNick) && NoSpaces(v) && SignedNumeral(num) && leafNick(v)
    ensures var m := v + " " + num;
      && SpanDigits(m, |v| + 2) == |m|
      && ChangeShape(m, leafNick, |v|, |v| + 1, |m|)
      && forall k: nat, j: nat, d: nat :: ChangeShape(m, leafNick, k, j, d) ==> k == |v| && j == |v| + 1
  {
    var m := v + " " + num;
    var p := |v|;
    ChangeMessageShapes(v, num, leafNick);
    assert m[..p] == v && m[p + 1] == num[0];
    assert m[p + 2..] == num[1..];
    SpanDigitsToEnd(m, p + 2);
    assert m[p..p + 1] == [' '];
    assert m[p + 2..|m|] == m[p + 2..];
  }

  /**
   * Writing a nick, a space and any delta gives a change command for that nick
   * and that delta, with an empty note.
   */
  lemma ChangeMessageRoundTrip(v: string, n: int, stemNick: string -> bool, leafNick: string -> bool)
    requires NickRejectsSpaces(stemNick) && NickRejectsSpaces(leafNick) && leafNick(v)
    ensures Classify(Some(v + " " + ShowSigned(n)), stemNick, leafNick) == Change(v, n, "")
  {
    var num := ShowSigned(n);
    var m := v + " " + num;
    var p := |v|;
    assert NoSpaces(v);
    ChangeMessageHasNoHistory(v, num, stemNick);
    ChangeMessageHasOneChange(v, num, leafNick);
    assert m[..p] == v && m[p + 1..|m|] == num;
    assert SpanSpaces(m, |m|) == |m| && LineRest(m, |m|) == [];
    ParseShowSigned(n);
    assert ChangeForm(m, leafNick);
    var c := Classify(Some(m), stemNick, leafNick);
    ChangeCaptureAt(m, leafNick, p, p + 1, c.victim, c.delta, c.note);
  }

  /** In `v`, ` history ` and an argument, the only history shape has its nick end after `v`. */
  lemma HistoryMessageShapes(v: string, arg: string, stemNick: string -> bool)
    requires NickRejectsSpaces(stemNick) && stemNick(v)
    ensures var m := v + " history " + arg;
      && HistoryShape(m, stemNick, |v|, |v| + 1)
      && forall k: nat, j: nat :: HistoryShape(m, stemNick, k, j) ==> k == |v| && j == |v| + 1
  {
    var m := v + " history " + arg;
    var p := |v|;
    assert NoSpaces(v);
    assert m[..p] == v && m[p] == ' ' && m[p + 1] == 'h';
    assert m[p + 1..p + 8] == "history";
    assert m[p..p + 1] == [' '];
    forall k: nat, j: nat | HistoryShape(m, stemNick, k, j)
      ensures k == p && j == p + 1
    {
      assert IsSpace(m[k..j][0]);
      SpaceEndsNick(m, p, k);
      SpacesStopAt(m, k, j, p + 1);
    }
  }

  /** A lone whitespace character is a run of length one. */
  lemma SingleSpace(s: string, i: nat)
    requires i < |s| && IsSpace(s[i]) && (i + 1 < |s| ==> !IsSpace(s[i + 1]))
    ensures SpanSpaces(s, i) == i + 1
  {
    assert SpanSpaces(s, i + 1) == i + 1;
  }

  /** What follows ` history ` is captured whole when it has no whitespace. */
  lemma HistoryMessageArgument(v: string, arg: string)
    requires NoSpaces(arg)
    ensures var m := v + " history " + arg;
      LineRest(m, SpanSpaces(m, |v| + 8)) == arg
  {
    var pre := v + " history ";
    var m := pre + arg;
    var p := |v|;
    assert |pre| == p + 9 && pre[p + 8] == ' ';
    assert m[p + 8] == ' ';
    assert p + 9 < |m| ==> m[p + 9] == arg[0];
    SingleSpace(m, p + 8);
    assert m[p + 9..] == arg;
    LineRestToEnd(m, p + 9);
  }

  /**
   * Writing a nick, ` history ` and a space-free argument gives a history
   * command for that nick and that argument.
   */
  lemma HistoryMessageRoundTrip(v: string, arg: string, stemNick: string -> bool, leafNick: string -> bool)
    requires NickRejectsSpaces(stemNick) && stemNick(v) && NoSpaces(arg)
    ensures Classify(Some(v + " history " + arg), stemNick, leafNick) == History(v, arg)
  {
    var m := v + " history " + arg;
    HistoryMessageShapes(v, arg, stemNick);
    HistoryMessageArgument(v, arg);
    assert m[..|v|] == v;
    assert HistoryForm(m, stemNick);
    var c := Classify(Some(m), stemNick, leafNick);
    HistoryCaptureAt(m, stemNick, |v|, |v| + 1, c.subject, c.argument);
  }

  /** The rest of a line that has no line break is everything up to the end. */
  lemma {:induction false} LineRestToEnd(s: string, i: nat)
    requires i <= |s| && NoSpaces(s[i..])
    ensures LineRest(s, i) == s[i..]
    decreases |s| - i
  {
    if i < |s| {
      assert s[i..][0] == s[i];
      assert s[i + 1..] == s[i..][1..];
      LineRestToEnd(s, i + 1);
    }
  }
}

=== FILE: config.dfy ===
/**
 * The configuration values the bootstrap reads: what a YAML document resolves
 * to, and the scopes of the Speciator (Autumn's configuration register).
 */
module Config {

  /** A YAML value. Symbol keys of the source are written as strings. */
  datatype Value =
    | Nil
    | Bool(b: bool)
    | Int(i: int)
    | Str(s: string)
    | List(items: seq<Value>)
    | Dict(entries: map<string, Value>)

  /** One scope of the Speciator (global or season). */
  type Scope = map<string, Value>

  /**
   * A configuration file as `YAML.load(File.open(path))` sees it: missing
   * (`Errno::ENOENT`), present but not openable (any other `SystemCallError`,
   * such as `EACCES` or `EISDIR`), opened but not loadable, or loaded.
   */
  datatype Doc<+T> = Absent | Unreadable | Unparsable | Parsed(content: T)

  /** The value stored under `key`, `nil` when there is none. */
  function Lookup(scope: Scope, key: string): (v: Value)
    ensures key !in scope ==> v == Nil
    ensures key in scope ==> v == scope[key]
  {
    if key in scope then scope[key] else Nil
  }

  /** Ruby truthiness: everything except `nil` and `false`. */
  predicate Truthy(v: Value) {
    !(v.Nil? || v == Bool(false))
  }

  /** Interpolation `"#{v}"` of the season value; only strings and `nil` are modelled. */
  function Text(v: Value): string {
    match v
    case Str(s) => s
    case _ => ""
  }
}

=== FILE: decimal.dfy ===
/**
 * Decimal numerals as Ruby's `String#to_i` reads them in the Scorekeeper
 * change command: an explicit sign followed by ASCII digits.
 */
module Decimal {

  predicate IsDigit(c: char) {
    '0' <= c <= '9'
  }

  predicate AllDigits(s: string) {
    forall i :: 0 <= i < |s| ==> IsDigit(s[i])
  }

  function DigitValue(c: char): (d: nat)
    requires IsDigit(c)
    ensures d < 10
  {
    c as int - '0' as int
  }

  function DigitChar(d: nat): (c: char)
    requires d < 10
    ensures IsDigit(c) && DigitValue(c) == d
  {
    ('0' as int + d) as char
  }

  /** The value of a run of digits, most significant first. */
  function DigitsValue(s: string): nat
    requires AllDigits(s)
  {
    if s == [] then 0 else 10 * DigitsValue(s[..|s| - 1]) + DigitValue(s[|s| - 1])
  }

  /** The shortest digit run denoting `n`. */
  function ShowNat(n: nat): (s: string)
    ensures AllDigits(s) && |s| >= 1
  {
    if n < 10 then [DigitChar(n)] else ShowNat(n / 10) + [DigitChar(n % 10)]
  }

  lemma {:induction false} ShowNatRoundTrip(n: nat)
    ensures DigitsValue(ShowNat(n)) == n
  {
    if n >= 10 {
      var s := ShowNat(n);
      assert s[..|s| - 1] == ShowNat(n / 10);
      ShowNatRoundTrip(n / 10);
    }
  }

  /** The text matched by `[\+\-]\d+`. */
  predicate SignedNumeral(s: string) {
    |s| >= 2 && (s[0] == '+' || s[0] == '-') && AllDigits(s[1..])
  }

  /** `String#to_i` of a signed numeral. */
  function ParseSigned(s: string): (n: int)
    requires SignedNumeral(s)
    ensures s[0] == '+' ==> n >= 0
    ensures s[0] == '-' ==> n <= 0
    ensures (if n < 0 then -n else n) == DigitsValue(s[1..])
  {
    var m: int := DigitsValue(s[1..]);
    if s[0] == '-' then -m else m
  }

  /** A signed numeral for `n`; the inverse direction of ParseSigned. */
  function ShowSigned(n: int): (s: string)
    ensures SignedNumeral(s)
  {
    if n < 0 then "-" + ShowNat(-n) else "+" + ShowNat(n)
  }

  /** Every integer delta can be written in the command and is read back unchanged. */
  lemma ParseShowSigned(n: int)
    ensures ParseSigned(ShowSigned(n)) == n
  {
    var s := ShowSigned(n);
    if n < 0 {
      assert s[1..] == ShowNat(-n);
      ShowNatRoundTrip(-n);
    } else {
      assert s[1..] == ShowNat(n);
      ShowNatRoundTrip(n);
    }
  }
}

=== FILE: genesis.dfy ===
/**
 * `Autumn::Genesis`: the bootstrap that loads configuration, libraries, the
 * system logger, daemons, shared code and databases, then hands the stem and
 * leaf configuration to the Foliater and waits for every stem to die.
 *
 * The file system, the environment and the collaborators the bootstrap calls
 * are abstract facts in an `Env`; each phase is a pure function from one
 * `BootState` to the next, or to the error it raises.
 */
module Genesis {
  import opened Base
  import opened Config
  import opened Phases

  /** One entry of `Dir.entries("leaves")`. */
  datatype DirEntry = DirEntry(name: string, isDirectory: bool)

  /** One file under `resources/daemons`, with its loaded YAML. */
  datatype DaemonFile = DaemonFile(name: string, doc: Doc<Value>)

  /** The files of one directory under `config/seasons`. */
  datatype SeasonFiles = SeasonFiles(
    seasonYml: Doc<Scope>,
    databaseYml: Doc<Value>,
    stemsYml: Doc<Value>,
    leavesYml: Doc<Value>)

  /** Everything the bootstrap observes of the world outside the process. */
  datatype Env = Env(
    root: string,                       // Autumn::Config.root
    seasonVar: Option<string>,          // ENV['SEASON']
    globalYml: Doc<Scope>,              // config/global.yml
    seasons: map<string, SeasonFiles>,  // the directories under config/seasons
    daemonFiles: seq<DaemonFile>,       // resources/daemons, in directory order
    leavesDir: Option<seq<DirEntry>>,   // Dir.entries("leaves"); None when it raises
    camelcase: string -> string,        // facets' String#camelcase
    raising: set<Phase>,                // phases whose `require`, Bundler or collaborator raises
    foliaterFault: Fault,               // the class of what the Foliater phase raises, when it does
    alive: seq<bool>)                   // successive answers of Foliater.instance.alive?

  /**
   * The class of an exception raised by `Foliater.load` or during the wait
   * loop. The bare `rescue` of invoke_foliater catches only a StandardError.
   */
  datatype Fault =
    | Standard  // a StandardError
    | Uncaught  // a LoadError or SyntaxError from leaf code, an Interrupt or a SystemExit

  /** The severities of Ruby's Logger. */
  datatype Level = Debug | Info | Warn | Error | Fatal | Unknown

  /** The system log file as `init_system_logger` opens it. */
  datatype LogSetup = LogSetup(path: string, history: Value, maxBytes: int, level: Level)

  datatype Daemon = Daemon(name: string, config: Value)

  /** The arguments of `Foliater.instance.load`. */
  datatype FoliaterCall = FoliaterCall(stems: Value, leaves: Value, invoke: bool)

  /** What the wait loop after `Foliater.load` did. */
  datatype Wait =
    | NoWait                 // invoke was false
    | Returned(stops: nat)   // alive? turned false after this many Thread.stop calls
    | StillWaiting           // every observed alive? answered true

  /** The errors the bootstrap raises. */
  datatype BootError =
    | GlobalYmlMissing
    | GlobalYmlUnparsable
    | SeasonNotNamed
    | SeasonDirMissing(season: string)
    | DaemonYmlUnloadable(file: string)
    | DatabaseYmlUnloadable
    | DatabaseYmlNotMapping
    | StemsYmlMissing(season: string)
    | StemsYmlUnloadable
    | LeavesYmlUnloadable
    | LeavesDirUnreadable
    | Raised(phase: Phase)     // a `require`, Bundler or collaborator failed inside the phase
    | OutOfOrder(phase: Phase) // the phase ran before one of its prerequisites

  /** How far `invoke_foliater` got. */
  datatype FoliaterRun =
    | NotYet
    | Launched(call: FoliaterCall, wait: Wait)
    | Rescued(error: BootError, loaded: Option<FoliaterCall>)
      // caught by its `rescue` and logged as fatal; `loaded` is the call to
      // Foliater.load already made when the failure came from it or the wait
    | Escaped(error: BootError)  // not a StandardError: passes the `rescue` and leaves `boot!`

  datatype BootState = BootState(
    completed: seq<Phase>,
    global: Scope,
    season: Scope,
    seasonDir: Option<(string, SeasonFiles)>,  // @season_dir
    logger: Option<LogSetup>,                  // @logger
    daemons: seq<Daemon>,
    noDatabase: bool,                          // Autumn::Config.no_database
    datastores: map<string, Value>,            // one DataMapper.setup per entry
    foliater: FoliaterRun,
    fatalLog: seq<BootError>)

  const Initial: BootState :=
    BootState([], map[], map[], None, None, [], false, map[], NotYet, [])

  /** A phase either produces the next state or raises. */
  datatype Step = Next(state: BootState) | Raise(error: BootError)

  /** How the whole bootstrap ended. */
  datatype BootResult =
    | Done(state: BootState)
    | Halted(error: BootError, phase: Phase, state: BootState)  // raised out of `boot!`

  // ---------------------------------------------------------------------------
  // load_pre_config_files, load_post_config_files, load_libraries, load_shared_code

  /** A phase whose only effect is loading code. */
  function LoadCode(p: Phase, env: Env, s: BootState): (r: Step)
    ensures r.Raise? <==> p in env.raising
    ensures r.Next? ==> r.state == s
  {
    if p in env.raising then Raise(Raised(p)) else Next(s)
  }

  /** The season named in the global scope, when it is a string. */
  function SeasonName(global: Scope): Option<string> {
    match Lookup(global, "season")
    case Str(n) => Some(n)
    case _ => None
  }

  /** `Bundler.require(:default, config.global(:season).to_sym)` needs a season name. */
  function LoadPostConfigFiles(env: Env, s: BootState): (r: Step)
    ensures SeasonName(s.global).None? ==> r == Raise(SeasonNotNamed)
    ensures r.Next? <==> SeasonName(s.global).Some? && PostConfigFiles !in env.raising
    ensures r.Next? ==> r.state == s
  {
    if SeasonName(s.global).None? then Raise(SeasonNotNamed) else LoadCode(PostConfigFiles, env, s)
  }

  // ---------------------------------------------------------------------------
  // load_global_settings

  /** The season the bootstrap settles on: ENV['SEASON'] when set, else the one in global.yml. */
  function ChosenSeason(env: Env): string {
    match env.seasonVar
    case Some(v) => v
    case None =>
      match env.globalYml
      case Parsed(yml) => Text(Lookup(yml, "season"))
      case _ => ""
  }

  /** ENV['SEASON'] is set, or global.yml names the season with a string. */
  predicate SeasonNamed(env: Env) {
    env.seasonVar.Some? || (env.globalYml.Parsed? && Lookup(env.globalYml.content, "season").Str?)
  }

  /** Merges global.yml into the global scope, then sets `:root` and the ENV season override. */
  function LoadGlobalSettings(env: Env, s: BootState): (r: Step)
    ensures env.globalYml.Absent? || env.globalYml.Unreadable? ==> r == Raise(GlobalYmlMissing)
    ensures r.Next? <==> env.globalYml.Parsed?
    ensures r.Next? ==> Lookup(r.state.global, "root") == Str(env.root)
    ensures r.Next? && env.seasonVar.Some? ==> Lookup(r.state.global, "season") == Str(env.seasonVar.value)
    ensures r.Next? && env.seasonVar.None? ==>
      Lookup(r.state.global, "season") == Lookup(s.global + env.globalYml.content, "season")
    ensures r.Next? ==> forall k :: k in env.globalYml.content && k != "root" && k != "season" ==>
      Lookup(r.state.global, k) == env.globalYml.content[k]
    ensures r.Next? ==> r.state == s.(global := r.state.global)
  {
    match env.globalYml
    case Absent => Raise(GlobalYmlMissing)
    case Unreadable => Raise(GlobalYmlMissing)
    case Unparsable => Raise(GlobalYmlUnparsable)
    case Parsed(yml) =>
      var merged := s.global + yml + map["root" := Str(env.root)];
      var global := if env.seasonVar.Some? then merged["season" := Str(env.seasonVar.value)] else merged;
      Next(s.(global := global))
  }

  // ---------------------------------------------------------------------------
  // load_season_settings

  /** Fails without a season directory; season.yml is optional and any error reading it is swallowed. */
  function LoadSeasonSettings(env: Env, s: BootState): (r: Step)
    ensures r.Raise? <==> Text(Lookup(s.global, "season")) !in env.seasons
    ensures r.Raise? ==> r.error == SeasonDirMissing(Text(Lookup(s.global, "season")))
    ensures r.Next? ==>
      var name := Text(Lookup(s.global, "season"));
      && r.state.seasonDir == Some((name, env.seasons[name]))
      && (env.seasons[name].seasonYml.Parsed? ==> r.state.season == s.season + env.seasons[name].seasonYml.content)
      && (!env.seasons[name].seasonYml.Parsed? ==> r.state.season == s.season)
      && r.state == s.(seasonDir := r.state.seasonDir, season := r.state.season)
  {
    var name := Text(Lookup(s.global, "season"));
    if name !in env.seasons then Raise(SeasonDirMissing(name))
    else
      var files := env.seasons[name];
      var season := if files.seasonYml.Parsed? then s.season + files.seasonYml.content else s.season;
      Next(s.(seasonDir := Some((name, files)), season := season))
  }

  // ---------------------------------------------------------------------------
  // init_system_logger

  function LevelName(l: Level): string {
    match l
    case Debug => "DEBUG"
    case Info => "INFO"
    case Warn => "WARN"
    case Error => "ERROR"
    case Fatal => "FATAL"
    case Unknown => "UNKNOWN"
  }

  /** `Logger.const_get(name)` restricted to the severity constants. */
  function LevelNamed(name: string): (r: Option<Level>)
    ensures r.Some? ==> LevelName(r.value) == name
    ensures forall l :: LevelName(l) == name ==> r == Some(l)
  {
    if name == "DEBUG" then Some(Debug)
    else if name == "INFO" then Some(Info)
    else if name == "WARN" then Some(Warn)
    else if name == "ERROR" then Some(Error)
    else if name == "FATAL" then Some(Fatal)
    else if name == "UNKNOWN" then Some(Unknown)
    else None
  }

  function UpcaseChar(c: char): char {
    if 'a' <= c <= 'z' then (c as int - 32) as char else c
  }

  /** ASCII `String#upcase`. */
  function Upcase(s: string): (r: string)
    ensures |r| == |s|
    ensures forall i :: 0 <= i < |s| ==> r[i] == UpcaseChar(s[i])
  {
    if s == [] then [] else [UpcaseChar(s[0])] + Upcase(s[1..])
  }

  /**
   * The level of the system log for the season's `logging` setting. A value
   * that is not a string (`nil.upcase` raises a NameError) or that names no
   * severity falls back to INFO.
   */
  function LogLevel(v: Value): (l: Level)
    ensures forall l0 :: v.Str? && Upcase(v.s) == LevelName(l0) ==> l == l0
    ensures (forall l0 :: !(v.Str? && Upcase(v.s) == LevelName(l0))) ==> l == Info
  {
    if v.Str? && LevelNamed(Upcase(v.s)).Some? then LevelNamed(Upcase(v.s)).value else Info
  }

  /** `config.season(key)`, falling back to the global scope. */
  function SeasonLookup(s: BootState, key: string): Value {
    if key in s.season then s.season[key] else Lookup(s.global, key)
  }

  /** `config.global(:log_history) || 10`. */
  function LogHistory(global: Scope): (h: Value)
    ensures Truthy(h)
    ensures Truthy(Lookup(global, "log_history")) ==> h == Lookup(global, "log_history")
    ensures !Truthy(Lookup(global, "log_history")) ==> h == Int(10)
  {
    var v := Lookup(global, "log_history");
    if Truthy(v) then v else Int(10)
  }

  /** Opens `log/<season>.log`, rotated at 1 MiB, at the season's level. */
  function InitSystemLogger(env: Env, s: BootState): (r: Step)
    ensures r.Raise? <==> SystemLogger in env.raising
    ensures r.Next? ==> r.state == s.(logger := r.state.logger) && r.state.logger.Some?
    ensures r.Next? ==>
      var log := r.state.logger.value;
      && log.path == env.root + "/log/" + Text(Lookup(s.global, "season")) + ".log"
      && log.history == LogHistory(s.global)
      && log.maxBytes == 1024 * 1024
      && log.level == LogLevel(SeasonLookup(s, "logging"))
  {
    if SystemLogger in env.raising then Raise(Raised(SystemLogger))
    else
      var path := env.root + "/log/" + Text(Lookup(s.global, "season")) + ".log";
      Next(s.(logger := Some(LogSetup(path, LogHistory(s.global), 1024 * 1024, LogLevel(SeasonLookup(s, "logging"))))))
  }

  // ---------------------------------------------------------------------------
  // load_daemon_info

  /** The names `Dir.glob("*.yml")` matches: ending in `.yml`, not hidden. */
  predicate IsYmlName(name: string) {
    |name| >= 4 && name[|name| - 4..] == ".yml" && name[0] != '.'
  }

  /** `File.basename(name, '.yml')`. */
  function Basename(name: string): (b: string)
    requires IsYmlName(name)
    ensures b + ".yml" == name && |b| >= 1
  {
    assert name == name[..|name| - 4] + name[|name| - 4..];
    name[..|name| - 4]
  }

  /** The daemon files the glob picks up, in directory order. */
  function Glob(files: seq<DaemonFile>): (r: seq<DaemonFile>)
    ensures forall f :: f in r <==> f in files && IsYmlName(f.name)
    ensures forall f :: multiset(r)[f] == if IsYmlName(f.name) then multiset(files)[f] else 0
    ensures |r| <= |files|
  {
    if files == [] then []
    else
      assert files == [files[0]] + files[1..];
      (if IsYmlName(files[0].name) then [files[0]] else []) + Glob(files[1..])
  }

  /** Concatenation regroups freely. */
  lemma ConcatAssoc<T>(x: seq<T>, y: seq<T>, z: seq<T>)
    ensures x + (y + z) == (x + y) + z
  {
  }

  /** The glob picks a single entry exactly when its name matches. */
  lemma GlobOne(f: DaemonFile)
    ensures Glob([f]) == if IsYmlName(f.name) then [f] else []
  {
    assert [f][1..] == [];
  }

  /**
   * The glob keeps directory order: over two runs of entries it picks from
   * each in turn. With GlobOne this fixes its result for every listing.
   */
  lemma {:induction false} GlobKeepsOrder(a: seq<DaemonFile>, b: seq<DaemonFile>)
    ensures Glob(a + b) == Glob(a) + Glob(b)
    decreases |a|
  {
    if a == [] {
      assert a + b == b;
    } else {
      var head := if IsYmlName(a[0].name) then [a[0]] else [];
      assert (a + b)[0] == a[0] && (a + b)[1..] == a[1..] + b;
      assert Glob(a + b) == head + Glob(a[1..] + b);
      GlobKeepsOrder(a[1..], b);
      assert Glob(a) == head + Glob(a[1..]);
      ConcatAssoc(head, Glob(a[1..]), Glob(b));
    }
  }

  /** One daemon per file, named after the file; the first unloadable file raises. */
  function LoadDaemons(files: seq<DaemonFile>): (r: Result<seq<Daemon>, BootError>)
    requires forall f :: f in files ==> IsYmlName(f.name)
    ensures r.Success? <==> forall i :: 0 <= i < |files| ==> files[i].doc.Parsed?
    ensures r.Success? ==> |r.value| == |files|
    ensures r.Success? ==> forall i :: 0 <= i < |files| ==>
      r.value[i].name + ".yml" == files[i].name && Parsed(r.value[i].config) == files[i].doc
    ensures r.Failure? ==>
      exists i :: 0 <= i < |files| && !files[i].doc.Parsed? && r.error == DaemonYmlUnloadable(files[i].name)
        && forall j :: 0 <= j < i ==> files[j].doc.Parsed?
  {
    if files == [] then Success([])
    else if !files[0].doc.Parsed? then Failure(DaemonYmlUnloadable(files[0].name))
    else
      match LoadDaemons(files[1..])
      case Failure(e) => Failure(e)
      case Success(rest) => Success([Daemon(Basename(files[0].name), files[0].doc.content)] + rest)
  }

  function LoadDaemonInfo(env: Env, s: BootState): (r: Step)
    ensures r.Next? ==> r.state == s.(daemons := r.state.daemons)
    ensures r.Next? <==> DaemonInfo !in env.raising && LoadDaemons(Glob(env.daemonFiles)).Success?
    ensures r.Next? ==> r.state.daemons == LoadDaemons(Glob(env.daemonFiles)).value
  {
    if DaemonInfo in env.raising then Raise(Raised(DaemonInfo))
    else
      match LoadDaemons(Glob(env.daemonFiles))
      case Failure(e) => Raise(e)
      case Success(ds) => Next(s.(daemons := ds))
  }

  // ---------------------------------------------------------------------------
  // load_databases

  /** Without database.yml only the `no_database` flag is set; otherwise one setup per top-level key. */
  function LoadDatabases(env: Env, s: BootState): (r: Step)
    ensures s.seasonDir.None? ==> r == Raise(OutOfOrder(Databases))
    ensures s.seasonDir.Some? ==>
      var doc := s.seasonDir.value.1.databaseYml;
      && (doc.Absent? ==> r == Next(s.(noDatabase := true)))
      && (r.Next? <==> doc.Absent? || (Databases !in env.raising && doc.Parsed? && doc.content.Dict?))
      && (r.Next? && !doc.Absent? ==> r.state == s.(datastores := doc.content.entries))
  {
    match s.seasonDir
    case None => Raise(OutOfOrder(Databases))
    case Some((_, files)) =>
      match files.databaseYml
      case Absent => Next(s.(noDatabase := true))
      case Unreadable => if Databases in env.raising then Raise(Raised(Databases)) else Raise(DatabaseYmlUnloadable)
      case Unparsable => if Databases in env.raising then Raise(Raised(Databases)) else Raise(DatabaseYmlUnloadable)
      case Parsed(doc) =>
        if Databases in env.raising then Raise(Raised(Databases))
        else if !doc.Dict? then Raise(DatabaseYmlNotMapping)
        else Next(s.(datastores := doc.entries))
  }

  // ---------------------------------------------------------------------------
  // invoke_foliater

  /** A subdirectory of `leaves/` that is not hidden. */
  predicate IsLeafDir(e: DirEntry) {
    e.isDirectory && !(|e.name| > 0 && e.name[0] == '.')
  }

  /** The configuration synthesised for one discovered leaf: `{'class' => name}`. */
  function LeafEntry(name: string): Value {
    Dict(map["class" := Str(name)])
  }

  /** The leaf configuration built from `leaves/` when leaves.yml is missing. */
  function DefaultLeaves(entries: seq<DirEntry>, camelcase: string -> string): (r: map<string, Value>)
    ensures forall k :: k in r <==> exists i :: 0 <= i < |entries| && IsLeafDir(entries[i]) && camelcase(entries[i].name) == k
    ensures forall k :: k in r ==> r[k] == LeafEntry(k)
  {
    if entries == [] then map[]
    else
      var rest := DefaultLeaves(entries[1..], camelcase);
      assert forall i :: 0 < i < |entries| ==> entries[i] == entries[1..][i - 1];
      if IsLeafDir(entries[0]) then rest[camelcase(entries[0].name) := LeafEntry(camelcase(entries[0].name))]
      else rest
  }

  /** leaves.yml, or the configuration discovered from `leaves/` when it is missing. */
  function LeafConfig(env: Env, files: SeasonFiles): (r: Result<Value, BootError>)
    ensures files.leavesYml.Parsed? ==> r == Success(files.leavesYml.content)
    ensures files.leavesYml.Unreadable? || files.leavesYml.Unparsable? ==> r == Failure(LeavesYmlUnloadable)
    ensures files.leavesYml.Absent? && env.leavesDir.None? ==> r == Failure(LeavesDirUnreadable)
    ensures files.leavesYml.Absent? && env.leavesDir.Some? ==>
      r == Success(Dict(DefaultLeaves(env.leavesDir.value, env.camelcase)))
  {
    match files.leavesYml
    case Parsed(v) => Success(v)
    case Unreadable => Failure(LeavesYmlUnloadable)
    case Unparsable => Failure(LeavesYmlUnloadable)
    case Absent =>
      match env.leavesDir
      case None => Failure(LeavesDirUnreadable)
      case Some(entries) => Success(Dict(DefaultLeaves(entries, env.camelcase)))
  }

  /** The wait loop: `while Foliater.instance.alive?; Thread.stop; end`. */
  function Supervise(alive: seq<bool>): (w: Wait)
    ensures !w.NoWait?
    ensures w.Returned? ==> w.stops < |alive| && !alive[w.stops]
    ensures w.Returned? ==> forall j :: 0 <= j < w.stops ==> alive[j]
    ensures w.StillWaiting? <==> forall j :: 0 <= j < |alive| ==> alive[j]
  {
    if alive == [] then StillWaiting
    else if !alive[0] then Returned(0)
    else
      var w := Supervise(alive[1..]);
      if w.Returned? then Returned(w.stops + 1) else w
  }

  /**
   * The body of the `begin ... rescue` in invoke_foliater, with what the
   * `rescue` makes of a failure: a StandardError is rescued, anything else
   * escapes.
   */
  function LaunchFoliater(env: Env, season: string, files: SeasonFiles, invoke: bool): (r: FoliaterRun)
    ensures !r.NotYet?
    ensures files.stemsYml.Absent? ==> r == Rescued(StemsYmlMissing(season), None)
    ensures r.Launched? <==> files.stemsYml.Parsed? && LeafConfig(env, files).Success? && Foliater !in env.raising
    ensures r.Escaped? <==>
      files.stemsYml.Parsed? && LeafConfig(env, files).Success? && Foliater in env.raising && env.foliaterFault.Uncaught?
    ensures r.Escaped? ==> r.error == Raised(Foliater)
    ensures r.Launched? ==> r.call == FoliaterCall(files.stemsYml.content, LeafConfig(env, files).value, invoke)
    ensures r.Rescued? ==> (r.loaded.Some? <==> r.error == Raised(Foliater))
    ensures r.Rescued? && r.loaded.Some? <==>
      files.stemsYml.Parsed? && LeafConfig(env, files).Success? && Foliater in env.raising && env.foliaterFault.Standard?
    ensures r.Rescued? && r.loaded.Some? ==>
      r.error == Raised(Foliater) && r.loaded.value == FoliaterCall(files.stemsYml.content, LeafConfig(env, files).value, invoke)
    ensures r.Launched? && !invoke ==> r.wait == NoWait
    ensures r.Launched? && invoke ==> r.wait == Supervise(env.alive)
  {
    match files.stemsYml
    case Absent => Rescued(StemsYmlMissing(season), None)
    case Unreadable => Rescued(StemsYmlUnloadable, None)
    case Unparsable => Rescued(StemsYmlUnloadable, None)
    case Parsed(stems) =>
      match LeafConfig(env, files)
      case Failure(e) => Rescued(e, None)
      case Success(leaves) =>
        var call := FoliaterCall(stems, leaves, invoke);
        if Foliater in env.raising then
          if env.foliaterFault.Uncaught? then Escaped(Raised(Foliater)) else Rescued(Raised(Foliater), Some(call))
        else Launched(call, if invoke then Supervise(env.alive) else NoWait)
  }

  /**
   * Runs the Foliater; a StandardError it raises is logged once as fatal and
   * not re-raised, anything else leaves the phase.
   */
  function InvokeFoliater(env: Env, s: BootState, invoke: bool): (r: Step)
    ensures r.Raise? <==>
      (|| s.seasonDir.None? || s.logger.None? || !s.foliater.NotYet?
       || LaunchFoliater(env, s.seasonDir.value.0, s.seasonDir.value.1, invoke).Escaped?)
    ensures s.seasonDir.None? || s.logger.None? || !s.foliater.NotYet? ==> r == Raise(OutOfOrder(Foliater))
    ensures r.Raise? && !r.error.OutOfOrder? ==> r.error == Raised(Foliater)
    ensures r.Next? ==> r.state.foliater == LaunchFoliater(env, s.seasonDir.value.0, s.seasonDir.value.1, invoke)
    ensures r.Next? ==> r.state.fatalLog == s.fatalLog + (if r.state.foliater.Rescued? then [r.state.foliater.error] else [])
    ensures r.Next? ==> r.state == s.(foliater := r.state.foliater, fatalLog := r.state.fatalLog)
  {
    if s.seasonDir.None? || s.logger.None? || !s.foliater.NotYet? then Raise(OutOfOrder(Foliater))
    else
      var run := LaunchFoliater(env, s.seasonDir.value.0, s.seasonDir.value.1, invoke);
      if run.Escaped? then Raise(run.error)
      else Next(s.(foliater := run, fatalLog := s.fatalLog + if run.Rescued? then [run.error] else []))
  }

  // ---------------------------------------------------------------------------
  // boot!

  /**
   * One call in the body of `boot!`. No phase rewrites the record of
   * completed phases, and only the Foliater phase launches the Foliater or
   * writes the fatal log.
   */
  function RunPhase(p: Phase, env: Env, invoke: bool, s: BootState): (r: Step)
    ensures r.Next? ==> r.state.completed == s.completed
    ensures r.Next? && p != Foliater ==> r.state.foliater == s.foliater && r.state.fatalLog == s.fatalLog
  {
    match p
    case PreConfigFiles => LoadCode(PreConfigFiles, env, s)
    case GlobalSettings => LoadGlobalSettings(env, s)
    case PostConfigFiles => LoadPostConfigFiles(env, s)
    case SeasonSettings => LoadSeasonSettings(env, s)
    case Libraries => LoadCode(Libraries, env, s)
    case SystemLogger => InitSystemLogger(env, s)
    case DaemonInfo => LoadDaemonInfo(env, s)
    case SharedCode => LoadCode(SharedCode, env, s)
    case Databases => LoadDatabases(env, s)
    case Foliater => InvokeFoliater(env, s, invoke)
  }

  /** The phases completed so far, as a set. */
  function Completed(s: BootState): set<Phase> {
    set p | p in s.completed
  }

  /**
   * Runs `ps` in order, stopping at the first phase that raises. A phase whose
   * prerequisites have not completed is refused.
   */
  function Run(ps: seq<Phase>, env: Env, invoke: bool, s: BootState): (r: BootResult)
    ensures r.Done? ==> r.state.completed == s.completed + ps
    ensures r.Halted? ==> exists k :: 0 <= k < |ps| && r.phase == ps[k] && r.state.completed == s.completed + ps[..k]
    decreases |ps|
  {
    if ps == [] then Done(s)
    else if !(Prereqs(ps[0]) <= Completed(s)) then Halted(OutOfOrder(ps[0]), ps[0], s)
    else
      match RunPhase(ps[0], env, invoke, s)
      case Raise(e) => Halted(e, ps[0], s)
      case Next(t) =>
        var r := Run(ps[1..], env, invoke, t.(completed := s.completed + [ps[0]]));
        RunStep(ps, s.completed, r);
        r
  }

  /** Shifts the shape of the rest of a run back by the phase that preceded it. */
  lemma RunStep(ps: seq<Phase>, before: seq<Phase>, r: BootResult)
    requires |ps| > 0
    requires r.Done? ==> r.state.completed == before + [ps[0]] + ps[1..]
    requires r.Halted? ==> exists k :: 0 <= k < |ps[1..]| && r.phase == ps[1..][k] && r.state.completed == before + [ps[0]] + ps[1..][..k]
    ensures r.Done? ==> r.state.completed == before + ps
    ensures r.Halted? ==> exists k :: 0 <= k < |ps| && r.phase == ps[k] && r.state.completed == before + ps[..k]
  {
    assert [ps[0]] + ps[1..] == ps;
    if r.Halted? {
      var k :| 0 <= k < |ps[1..]| && r.phase == ps[1..][k] && r.state.completed == before + [ps[0]] + ps[1..][..k];
      assert ps[..k + 1] == [ps[0]] + ps[1..][..k];
      assert before + [ps[0]] + ps[1..][..k] == before + ps[..k + 1];
      assert r.phase == ps[k + 1];
    }
  }

  /** `Genesis.new.boot!(invoke)`. */
  function Boot(env: Env, invoke: bool): BootResult {
    Run(Lifecycle, env, invoke, Initial)
  }

  // ---------------------------------------------------------------------------
  // What the fixed order guarantees

  /** What the phases completed so far have established about the state. */
  ghost predicate Invariant(env: Env, invoke: bool, s: BootState) {
    var done := Completed(s);
    var name := ChosenSeason(env);
    && (GlobalSettings !in done ==> s.global == map[])
    && (GlobalSettings in done ==>
          && env.globalYml.Parsed?
          && Lookup(s.global, "root") == Str(env.root)
          && Text(Lookup(s.global, "season")) == name
          && (SeasonName(s.global).Some? <==> SeasonNamed(env)))
    && (SeasonSettings !in done ==> s.seasonDir.None?)
    && (SeasonSettings in done ==> name in env.seasons && s.seasonDir == Some((name, env.seasons[name])))
    && (SystemLogger in done ==> s.logger.Some?)
    && (Databases !in done ==> !s.noDatabase && s.datastores == map[])
    && (Databases in done ==>
          && name in env.seasons
          && (s.noDatabase <==> env.seasons[name].databaseYml.Absent?)
          && (!s.noDatabase ==> env.seasons[name].databaseYml == Parsed(Dict(s.datastores))))
    && (Foliater !in done ==> s.foliater == NotYet && s.fatalLog == [])
    && (Foliater in done ==>
          && name in env.seasons
          && s.foliater == LaunchFoliater(env, name, env.seasons[name], invoke)
          && !s.foliater.Escaped?
          && s.fatalLog == if s.foliater.Rescued? then [s.foliater.error] else [])
  }

  lemma CompletedAppend(s: BootState, p: Phase, t: BootState)
    requires t.completed == s.completed + [p]
    ensures Completed(t) == Completed(s) + {p}
  {
  }

  /** The Foliater phase fails with an exception its bare `rescue` does not catch. */
  predicate Escapes(env: Env) {
    Foliater in env.raising && env.foliaterFault.Uncaught?
  }

  /**
   * What running phase `p` from `s` keeps: no OutOfOrder error, a Foliater
   * phase that raises only what its `rescue` cannot catch, the invariant.
   */
  ghost predicate KeepsInvariant(p: Phase, env: Env, invoke: bool, s: BootState) {
    var r := RunPhase(p, env, invoke, s);
    && (r.Raise? ==> !r.error.OutOfOrder?)
    && (p == Foliater && r.Raise? ==> Escapes(env) && r.error == Raised(Foliater))
    && (r.Next? ==> Invariant(env, invoke, r.state.(completed := s.completed + [p])))
  }

  /**
   * A phase whose prerequisites have completed never finds the state it needs
   * missing, and keeps the invariant. The Foliater phase raises only an
   * exception that is not a StandardError.
   */
  lemma PhaseKeepsInvariant(p: Phase, env: Env, invoke: bool, s: BootState)
    requires Invariant(env, invoke, s)
    requires Prereqs(p) <= Completed(s)
    requires p !in Completed(s)
    ensures RunPhase(p, env, invoke, s).Raise? ==> !RunPhase(p, env, invoke, s).error.OutOfOrder?
    ensures p == Foliater && RunPhase(p, env, invoke, s).Raise? ==>
      Escapes(env) && RunPhase(p, env, invoke, s).error == Raised(Foliater)
    ensures RunPhase(p, env, invoke, s).Next? ==>
      Invariant(env, invoke, RunPhase(p, env, invoke, s).state.(completed := s.completed + [p]))
  {
    if p == PreConfigFiles || p == PostConfigFiles {
      ConfigFilesKeepInvariant(p, env, invoke, s);
    } else if p == GlobalSettings {
      GlobalSettingsKeepInvariant(env, invoke, s);
    } else if p == SeasonSettings || p == Libraries || p == SystemLogger {
      SeasonPhaseKeepsInvariant(p, env, invoke, s);
    } else if p == DaemonInfo || p == SharedCode {
      DaemonPhaseKeepsInvariant(p, env, invoke, s);
    } else {
      LastPhaseKeepsInvariant(p, env, invoke, s);
    }
  }

  /** PhaseKeepsInvariant for the two phases that only load code. */
  lemma ConfigFilesKeepInvariant(p: Phase, env: Env, invoke: bool, s: BootState)
    requires p == PreConfigFiles || p == PostConfigFiles
    requires Invariant(env, invoke, s) && Prereqs(p) <= Completed(s) && p !in Completed(s)
    ensures KeepsInvariant(p, env, invoke, s)
  {
    var r := RunPhase(p, env, invoke, s);
    if r.Next? {
      CompletedAppend(s, p, r.state.(completed := s.completed + [p]));
    }
  }

  /** PhaseKeepsInvariant for the global settings phase. */
  lemma GlobalSettingsKeepInvariant(env: Env, invoke: bool, s: BootState)
    requires Invariant(env, invoke, s) && GlobalSettings !in Completed(s)
    ensures KeepsInvariant(GlobalSettings, env, invoke, s)
  {
    var r := RunPhase(GlobalSettings, env, invoke, s);
    if r.Next? {
      CompletedAppend(s, GlobalSettings, r.state.(completed := s.completed + [GlobalSettings]));
      var yml := env.globalYml.content;
      assert Lookup(s.global + yml, "season") == Lookup(yml, "season");
    }
  }

  /** PhaseKeepsInvariant for the season, library and logger phases. */
  lemma SeasonPhaseKeepsInvariant(p: Phase, env: Env, invoke: bool, s: BootState)
    requires p == SeasonSettings || p == Libraries || p == SystemLogger
    requires Invariant(env, invoke, s) && Prereqs(p) <= Completed(s) && p !in Completed(s)
    ensures KeepsInvariant(p, env, invoke, s)
  {
    var r := RunPhase(p, env, invoke, s);
    if r.Next? {
      CompletedAppend(s, p, r.state.(completed := s.completed + [p]));
    }
  }

  /** PhaseKeepsInvariant for the daemon and shared-code phases. */
  lemma DaemonPhaseKeepsInvariant(p: Phase, env: Env, invoke: bool, s: BootState)
    requires p == DaemonInfo || p == SharedCode
    requires Invariant(env, invoke, s) && Prereqs(p) <= Completed(s) && p !in Completed(s)
    ensures KeepsInvariant(p, env, invoke, s)
  {
    var r := RunPhase(p, env, invoke, s);
    if r.Next? {
      CompletedAppend(s, p, r.state.(completed := s.completed + [p]));
    }
  }

  /** PhaseKeepsInvariant for the database and Foliater phases. */
  lemma LastPhaseKeepsInvariant(p: Phase, env: Env, invoke: bool, s: BootState)
    requires p == Databases || p == Foliater
    requires Invariant(env, invoke, s) && Prereqs(p) <= Completed(s) && p !in Completed(s)
    ensures KeepsInvariant(p, env, invoke, s)
  {
    var r := RunPhase(p, env, invoke, s);
    if r.Next? {
      CompletedAppend(s, p, r.state.(completed := s.completed + [p]));
    }
  }

  /** After the first `k` phases of the lifecycle, the next one finds its prerequisites and has not run. */
  lemma NextPhaseReady(k: nat, s: BootState)
    requires k < |Lifecycle|
    requires s.completed == Lifecycle[..k]
    ensures Prereqs(Lifecycle[k]) <= Completed(s)
    ensures Lifecycle[k] !in Completed(s)
  {
    LifecycleIsWellOrdered();
    forall q | q in Prereqs(Lifecycle[k])
      ensures q in Completed(s)
    {
      assert q in Lifecycle[..k];
    }
    forall j | 0 <= j < k
      ensures s.completed[j] != Lifecycle[k]
    {
      assert s.completed[j] == Lifecycle[j];
    }
  }

  /** One step of Run, for a phase whose prerequisites have completed. */
  lemma RunUnfold(ps: seq<Phase>, env: Env, invoke: bool, s: BootState)
    requires |ps| > 0 && Prereqs(ps[0]) <= Completed(s)
    ensures RunPhase(ps[0], env, invoke, s).Raise? ==>
      Run(ps, env, invoke, s) == Halted(RunPhase(ps[0], env, invoke, s).error, ps[0], s)
    ensures RunPhase(ps[0], env, invoke, s).Next? ==>
      Run(ps, env, invoke, s) ==
      Run(ps[1..], env, invoke, RunPhase(ps[0], env, invoke, s).state.(completed := s.completed + [ps[0]]))
  {
  }

  /** One phase of the lifecycle, run from a state reached by the phases before it. */
  lemma LifecycleStep(env: Env, invoke: bool, k: nat, s: BootState)
    requires k < |Lifecycle|
    requires s.completed == Lifecycle[..k]
    requires Invariant(env, invoke, s)
    ensures var step := RunPhase(Lifecycle[k], env, invoke, s);
      && (step.Raise? ==>
            && Run(Lifecycle[k..], env, invoke, s) == Halted(step.error, Lifecycle[k], s)
            && !step.error.OutOfOrder?
            && (Lifecycle[k] == Foliater ==> Escapes(env) && step.error == Raised(Foliater)))
      && (step.Next? ==>
            var t := step.state.(completed := s.completed + [Lifecycle[k]]);
            && Run(Lifecycle[k..], env, invoke, s) == Run(Lifecycle[k + 1..], env, invoke, t)
            && t.completed == Lifecycle[..k + 1]
            && Invariant(env, invoke, t))
  {
    var p := Lifecycle[k];
    var ps := Lifecycle[k..];
    assert ps[0] == p && ps[1..] == Lifecycle[k + 1..];
    assert Lifecycle[..k + 1] == Lifecycle[..k] + [p];
    NextPhaseReady(k, s);
    PhaseKeepsInvariant(p, env, invoke, s);
    RunUnfold(ps, env, invoke, s);
  }

  /** Running the rest of the lifecycle from a state reached by its first `k` phases. */
  lemma {:induction false} LifecycleRun(env: Env, invoke: bool, k: nat, s: BootState)
    requires k <= |Lifecycle|
    requires s.completed == Lifecycle[..k]
    requires Invariant(env, invoke, s)
    ensures var r := Run(Lifecycle[k..], env, invoke, s);
      && (r.Done? ==> Invariant(env, invoke, r.state) && r.state.completed == Lifecycle)
      && (r.Halted? ==> !r.error.OutOfOrder?)
      && (r.Halted? && r.phase == Foliater ==> Escapes(env) && r.error == Raised(Foliater))
      && (r.Halted? ==> Invariant(env, invoke, r.state) && RunPhase(r.phase, env, invoke, r.state) == Raise(r.error))
    decreases |Lifecycle| - k
  {
    if k == |Lifecycle| {
      assert Lifecycle[k..] == [];
      assert Lifecycle[..k] == Lifecycle;
    } else {
      LifecycleStep(env, invoke, k, s);
      var step := RunPhase(Lifecycle[k], env, invoke, s);
      if step.Next? {
        LifecycleRun(env, invoke, k + 1, step.state.(completed := s.completed + [Lifecycle[k]]));
      }
    }
  }

  /** The state a whole bootstrap starts from satisfies the invariant. */
  lemma BootRun(env: Env, invoke: bool)
    ensures var r := Boot(env, invoke);
      && (r.Done? ==> Invariant(env, invoke, r.state) && r.state.completed == Lifecycle)
      && (r.Halted? ==> !r.error.OutOfOrder?)
      && (r.Halted? && r.phase == Foliater ==> Escapes(env) && r.error == Raised(Foliater))
      && (r.Halted? ==> Invariant(env, invoke, r.state) && RunPhase(r.phase, env, invoke, r.state) == Raise(r.error))
      && (r.Halted? ==> exists k :: 0 <= k < |Lifecycle| && r.phase == Lifecycle[k] && r.state.completed == Lifecycle[..k])
  {
    assert Lifecycle[0..] == Lifecycle;
    LifecycleRun(env, invoke, 0, Initial);
  }

  /**
   * Phase order: a bootstrap runs the phases of the lifecycle in order; it
   * either completes all of them or stops at the first that raises, with
   * exactly the phases before it completed. No phase ever runs before one of
   * its declared prerequisites.
   */
  lemma BootFollowsLifecycle(env: Env, invoke: bool)
    ensures Boot(env, invoke).Done? ==> Boot(env, invoke).state.completed == Lifecycle
    ensures Boot(env, invoke).Halted? ==>
      var r := Boot(env, invoke);
      && !r.error.OutOfOrder?
      && exists k :: 0 <= k < |Lifecycle| && r.phase == Lifecycle[k] && r.state.completed == Lifecycle[..k]
  {
    BootRun(env, invoke);
  }

  /**
   * Error boundary: a StandardError raised while invoking the Foliater does
   * not leave the bootstrap; the bootstrap halts in the Foliater phase only
   * for an exception the bare `rescue` cannot catch. A completed bootstrap
   * logged exactly one fatal record when the Foliater phase failed, and none
   * otherwise. A failure before Foliater.load (stems.yml or the leaf
   * configuration) records no call; a failure raised by Foliater.load or the
   * wait loop keeps the call already made.
   */
  lemma FoliaterErrorsAreContained(env: Env, invoke: bool)
    ensures Boot(env, invoke).Halted? && Boot(env, invoke).phase == Foliater ==>
      Escapes(env) && Boot(env, invoke).error == Raised(Foliater)
    ensures Boot(env, invoke).Done? ==>
      var t := Boot(env, invoke).state;
      && !t.foliater.NotYet? && !t.foliater.Escaped?
      && (t.foliater.Rescued? ==> t.fatalLog == [t.foliater.error])
      && (t.foliater.Launched? ==> t.fatalLog == [])
      && (Escapes(env) ==> t.foliater.Rescued? && t.foliater.error != Raised(Foliater))
      && (t.foliater.Rescued? ==> (t.foliater.loaded.Some? <==> t.foliater.error == Raised(Foliater)))
  {
    BootRun(env, invoke);
    var r := Boot(env, invoke);
    if r.Done? {
      CompletedFoliaterFacts(env, invoke, r.state);
    }
  }

  /** What a state that completed the whole lifecycle records about the Foliater. */
  lemma CompletedFoliaterFacts(env: Env, invoke: bool, t: BootState)
    requires Invariant(env, invoke, t) && t.completed == Lifecycle
    ensures !t.foliater.NotYet? && !t.foliater.Escaped?
    ensures t.foliater.Rescued? ==> t.fatalLog == [t.foliater.error]
    ensures t.foliater.Launched? ==> t.fatalLog == []
    ensures Escapes(env) ==> t.foliater.Rescued? && t.foliater.error != Raised(Foliater)
    ensures t.foliater.Rescued? ==> (t.foliater.loaded.Some? <==> t.foliater.error == Raised(Foliater))
  {
    LifecycleCompletesAll(t);
  }

  /**
   * Supervision: a bootstrap that launched the stems waits only when `invoke`
   * is set, and stops waiting exactly at the first time alive? answers false.
   */
  lemma SupervisionFollowsInvoke(env: Env, invoke: bool)
    ensures Boot(env, invoke).Done? && Boot(env, invoke).state.foliater.Launched? ==>
      var w := Boot(env, invoke).state.foliater.wait;
      && (!invoke <==> w.NoWait?)
      && (w.Returned? ==> w.stops < |env.alive| && !env.alive[w.stops] && forall j :: 0 <= j < w.stops ==> env.alive[j])
      && (w.StillWaiting? ==> forall j :: 0 <= j < |env.alive| ==> env.alive[j])
  {
    BootRun(env, invoke);
    if Boot(env, invoke).Done? {
      LifecycleCompletesAll(Boot(env, invoke).state);
    }
  }

  /** What a state that completed the whole lifecycle records about the season and databases. */
  lemma CompletedSeasonFacts(env: Env, invoke: bool, t: BootState)
    requires Invariant(env, invoke, t) && t.completed == Lifecycle
    ensures
      var name := ChosenSeason(env);
      && env.globalYml.Parsed?
      && (env.seasonVar.Some? ==> name == env.seasonVar.value)
      && name in env.seasons
      && t.seasonDir == Some((name, env.seasons[name]))
      && Lookup(t.global, "root") == Str(env.root)
      && (t.noDatabase <==> env.seasons[name].databaseYml.Absent?)
      && (!t.noDatabase ==> env.seasons[name].databaseYml == Parsed(Dict(t.datastores)))
  {
    LifecycleCompletesAll(t);
  }

  /** A state that ran the whole lifecycle has completed every phase the invariant speaks of. */
  lemma LifecycleCompletesAll(t: BootState)
    requires t.completed == Lifecycle
    ensures GlobalSettings in Completed(t) && SeasonSettings in Completed(t)
    ensures Databases in Completed(t) && Foliater in Completed(t)
  {
    assert t.completed[1] == GlobalSettings && t.completed[3] == SeasonSettings;
    assert t.completed[8] == Databases && t.completed[9] == Foliater;
  }

  /**
   * Season override: a completed bootstrap read the season that ENV['SEASON']
   * names when it is set (global.yml's otherwise) from that season's
   * directory, and `:root` is set in the global scope.
   */
  lemma SeasonOverrideHolds(env: Env, invoke: bool)
    ensures Boot(env, invoke).Done? ==>
      var t := Boot(env, invoke).state;
      var name := ChosenSeason(env);
      && (env.seasonVar.Some? ==> name == env.seasonVar.value)
      && env.globalYml.Parsed?
      && (env.seasonVar.None? ==> name == Text(Lookup(env.globalYml.content, "season")))
      && name in env.seasons
      && t.seasonDir == Some((name, env.seasons[name]))
      && Lookup(t.global, "root") == Str(env.root)
  {
    BootRun(env, invoke);
    var r := Boot(env, invoke);
    if r.Done? {
      CompletedSeasonFacts(env, invoke, r.state);
    }
  }

  /**
   * No database: in a completed bootstrap `no_database` holds exactly when
   * the season has no database.yml; when it has one, one datastore was set up
   * per top-level key.
   */
  lemma NoDatabaseFlagHolds(env: Env, invoke: bool)
    ensures Boot(env, invoke).Done? ==>
      var t := Boot(env, invoke).state;
      && ChosenSeason(env) in env.seasons
      && var files := env.seasons[ChosenSeason(env)];
      && (t.noDatabase <==> files.databaseYml.Absent?)
      && (!t.noDatabase ==> files.databaseYml == Parsed(Dict(t.datastores)))
  {
    BootRun(env, invoke);
    var r := Boot(env, invoke);
    if r.Done? {
      CompletedSeasonFacts(env, invoke, r.state);
    }
  }

  /**
   * A season without stems.yml never stops the bootstrap in the Foliater
   * phase. When such a bootstrap completes, the missing file was logged once
   * as fatal, and neither Foliater.load nor the wait loop ran.
   */
  lemma MissingStemsYmlIsLogged(env: Env, invoke: bool)
    ensures (Boot(env, invoke).Done? && ChosenSeason(env) in env.seasons
             && env.seasons[ChosenSeason(env)].stemsYml.Absent?) ==>
      var t := Boot(env, invoke).state;
      && t.foliater == Rescued(StemsYmlMissing(ChosenSeason(env)), None)
      && t.fatalLog == [StemsYmlMissing(ChosenSeason(env))]
    ensures ChosenSeason(env) in env.seasons && env.seasons[ChosenSeason(env)].stemsYml.Absent? ==>
      !(Boot(env, invoke).Halted? && Boot(env, invoke).phase == Foliater)
  {
    BootRun(env, invoke);
    var r := Boot(env, invoke);
    if r.Done? {
      CompletedSeasonFacts(env, invoke, r.state);
      LifecycleCompletesAll(r.state);
    } else if ChosenSeason(env) in env.seasons && env.seasons[ChosenSeason(env)].stemsYml.Absent? {
      var k := HaltedAt(env, invoke);
      StemsYmlNoHalt(env, invoke, k, r.state, r.error);
    }
  }

  /** Where a halted bootstrap stopped: the phase at position `k` raised, after the first `k` completed. */
  lemma HaltedAt(env: Env, invoke: bool) returns (k: nat)
    requires Boot(env, invoke).Halted?
    ensures k < |Lifecycle|
    ensures var r := Boot(env, invoke);
      && r.phase == Lifecycle[k]
      && r.state.completed == Lifecycle[..k]
      && Invariant(env, invoke, r.state)
      && RunPhase(r.phase, env, invoke, r.state) == Raise(r.error)
  {
    BootRun(env, invoke);
    var r := Boot(env, invoke);
    k :| 0 <= k < |Lifecycle| && r.phase == Lifecycle[k] && r.state.completed == Lifecycle[..k];
  }

  /**
   * Fail-fast: a missing or unopenable global.yml stops the bootstrap in its first `boot!`
   * phase, with only the pre-config files loaded.
   */
  lemma MissingGlobalYmlAborts(env: Env, invoke: bool)
    requires PreConfigFiles !in env.raising && (env.globalYml.Absent? || env.globalYml.Unreadable?)
    ensures Boot(env, invoke).Halted?
    ensures Boot(env, invoke).error == GlobalYmlMissing && Boot(env, invoke).phase == GlobalSettings
    ensures Boot(env, invoke).state.completed == [PreConfigFiles]
  {
    BootRun(env, invoke);
    var r := Boot(env, invoke);
    if r.Done? {
      CompletedSeasonFacts(env, invoke, r.state);
    } else {
      var k := HaltedAt(env, invoke);
      GlobalYmlHalt(env, invoke, k, r.state, r.error);
    }
  }

  /**
   * Fail-fast: a season without a directory under config/seasons stops the
   * bootstrap in the season phase; no library, logger, daemon, database or
   * Foliater phase runs.
   */
  lemma MissingSeasonDirAborts(env: Env, invoke: bool)
    requires PreConfigFiles !in env.raising && PostConfigFiles !in env.raising
    requires env.globalYml.Parsed? && SeasonNamed(env) && ChosenSeason(env) !in env.seasons
    ensures Boot(env, invoke).Halted?
    ensures Boot(env, invoke).error == SeasonDirMissing(ChosenSeason(env))
    ensures Boot(env, invoke).phase == SeasonSettings
    ensures Boot(env, invoke).state.completed == [PreConfigFiles, GlobalSettings, PostConfigFiles]
  {
    BootRun(env, invoke);
    var r := Boot(env, invoke);
    if r.Done? {
      CompletedSeasonFacts(env, invoke, r.state);
    } else {
      var k := HaltedAt(env, invoke);
      SeasonDirHalt(env, invoke, k, r.state, r.error);
    }
  }

  /** Without stems.yml the Foliater phase is rescued, so it is never the phase that raises. */
  lemma StemsYmlNoHalt(env: Env, invoke: bool, k: nat, t: BootState, e: BootError)
    requires ChosenSeason(env) in env.seasons && env.seasons[ChosenSeason(env)].stemsYml.Absent?
    requires k < |Lifecycle| && t.completed == Lifecycle[..k] && Invariant(env, invoke, t)
    requires RunPhase(Lifecycle[k], env, invoke, t) == Raise(e)
    ensures Lifecycle[k] != Foliater
  {
    RankIndexes();
    EarlierPhaseDone(k, 3);
    EarlierPhaseDone(k, 5);
  }

  /** Once the first `k` phases ran, every phase before position `k` is among them. */
  lemma EarlierPhaseDone(k: nat, j: nat)
    ensures j < k <= |Lifecycle| ==> Lifecycle[j] in Lifecycle[..k]
  {
    if j < k <= |Lifecycle| {
      assert Lifecycle[..k][j] == Lifecycle[j];
    }
  }

  /** The only phase that can raise when global.yml is missing is the global settings phase. */
  lemma GlobalYmlHalt(env: Env, invoke: bool, k: nat, t: BootState, e: BootError)
    requires PreConfigFiles !in env.raising && (env.globalYml.Absent? || env.globalYml.Unreadable?)
    requires k < |Lifecycle| && t.completed == Lifecycle[..k] && Invariant(env, invoke, t)
    requires RunPhase(Lifecycle[k], env, invoke, t) == Raise(e)
    ensures k == 1 && e == GlobalYmlMissing && Lifecycle[k] == GlobalSettings
    ensures t.completed == [PreConfigFiles]
  {
    EarlierPhaseDone(k, 1);
    if k == 1 {
      assert Lifecycle[..1] == [PreConfigFiles];
    }
  }

  /** The only phase that can raise when just the season directory is missing is the season phase. */
  lemma SeasonDirHalt(env: Env, invoke: bool, k: nat, t: BootState, e: BootError)
    requires PreConfigFiles !in env.raising && PostConfigFiles !in env.raising
    requires env.globalYml.Parsed? && SeasonNamed(env) && ChosenSeason(env) !in env.seasons
    requires k < |Lifecycle| && t.completed == Lifecycle[..k] && Invariant(env, invoke, t)
    requires RunPhase(Lifecycle[k], env, invoke, t) == Raise(e)
    ensures k == 3 && e == SeasonDirMissing(ChosenSeason(env)) && Lifecycle[k] == SeasonSettings
    ensures t.completed == [PreConfigFiles, GlobalSettings, PostConfigFiles]
  {
    RankIndexes();
    EarlierPhaseDone(k, 1);
    EarlierPhaseDone(k, 3);
    if k == 3 {
      assert Lifecycle[..3] == [PreConfigFiles, GlobalSettings, PostConfigFiles];
    }
  }
}

=== FILE: phases.dfy ===
/**
 * The bootstrap phases of `Autumn::Genesis` and the prerequisites each
 * phase declares in its `PREREQS` comment.
 */
module Phases {

  datatype Phase =
    | PreConfigFiles   // load_pre_config_files, run by Genesis.new
    | GlobalSettings   // load_global_settings
    | PostConfigFiles  // load_post_config_files
    | SeasonSettings   // load_season_settings
    | Libraries        // load_libraries
    | SystemLogger     // init_system_logger
    | DaemonInfo       // load_daemon_info
    | SharedCode       // load_shared_code
    | Databases        // load_databases
    | Foliater         // invoke_foliater

  /** The phases `boot!` runs, in its order. */
  const BootOrder: seq<Phase> :=
    [GlobalSettings, PostConfigFiles, SeasonSettings, Libraries, SystemLogger,
     DaemonInfo, SharedCode, Databases, Foliater]

  /** Everything a `Genesis.new.boot!` runs: the pre-config files first, then `boot!`. */
  const Lifecycle: seq<Phase> := [PreConfigFiles] + BootOrder

  /** The prerequisites each phase documents; load_shared_code documents none. */
  function Prereqs(p: Phase): set<Phase> {
    match p
    case PreConfigFiles => {}
    case GlobalSettings => {}
    case PostConfigFiles => {GlobalSettings}
    case SeasonSettings => {GlobalSettings}
    case Libraries => {GlobalSettings}
    case SystemLogger => {Libraries}
    case DaemonInfo => {Libraries}
    case SharedCode => {}
    case Databases => {SeasonSettings}
    case Foliater => {Databases, SeasonSettings, Libraries, SystemLogger}
  }

  /** Every phase of `order` finds all of its prerequisites strictly earlier. */
  ghost predicate PrereqsFirst(order: seq<Phase>) {
    forall i, q :: 0 <= i < |order| && q in Prereqs(order[i]) ==> q in order[..i]
  }

  /** No phase occurs twice. */
  ghost predicate Distinct(order: seq<Phase>) {
    forall i, j :: 0 <= i < j < |order| ==> order[i] != order[j]
  }

  /** The position of a phase in the lifecycle. */
  function Rank(p: Phase): (n: nat)
    ensures n < |Lifecycle|
  {
    match p
    case PreConfigFiles => 0
    case GlobalSettings => 1
    case PostConfigFiles => 2
    case SeasonSettings => 3
    case Libraries => 4
    case SystemLogger => 5
    case DaemonInfo => 6
    case SharedCode => 7
    case Databases => 8
    case Foliater => 9
  }

  /** Rank and indexing into the lifecycle are inverse to each other. */
  lemma RankIndexes()
    ensures forall p :: Lifecycle[Rank(p)] == p
    ensures forall i :: 0 <= i < |Lifecycle| ==> Rank(Lifecycle[i]) == i
  {
    assert Lifecycle == [PreConfigFiles, GlobalSettings, PostConfigFiles, SeasonSettings, Libraries,
                         SystemLogger, DaemonInfo, SharedCode, Databases, Foliater];
  }

  /** The lifecycle runs each phase once and never before a prerequisite. */
  lemma LifecycleIsWellOrdered()
    ensures |Lifecycle| == 10 && Lifecycle[0] == PreConfigFiles && Lifecycle[1..] == BootOrder
    ensures PrereqsFirst(Lifecycle)
    ensures Distinct(Lifecycle)
  {
    var l := Lifecycle;
    assert l[1..] == BootOrder;
    RankIndexes();
    forall i, q | 0 <= i < |l| && q in Prereqs(l[i])
      ensures q in l[..i]
    {
      assert Rank(q) < Rank(l[i]);
      assert l[..i][Rank(q)] == q;
    }
    forall i, j | 0 <= i < j < |l|
      ensures l[i] != l[j]
    {
      assert Rank(l[i]) != Rank(l[j]);
    }
  }
}

=== FILE: scorekeeper.dfy ===
/**
 * The Scorekeeper leaf's controller: the `!points` command and the two
 * decision tables behind it. The helpers whose code is not visible
 * (`find_person`, `find_in_channel`, `authorized?`, `parse_date`,
 * `find_range`, the two nick patterns) are fields of the context.
 */
module Scorekeeper {
  import opened Base
  import opened Sorting
  import opened Decimal
  import opened CommandSyntax
  import opened Scores

  /** What a command invocation can consult besides the store. */
  datatype Ctx = Ctx(
    server: string,                                         // server_identifier(stem)
    stemNick: string -> bool,                               // stem.nick_regex
    leafNick: string -> bool,                               // the leaf's nick_regex
    findPerson: string -> Option<Person>,                   // find_person(stem, name)
    findInChannel: (string, string) -> string,              // find_in_channel(stem, channel, victim)
    authorized: (Option<Person>, Option<Person>) -> bool,   // authorized?(giver, receiver)
    scoring: Option<string>,                                // options[:scoring]
    parseDate: string -> Option<int>,                       // parse_date(argument)
    findRange: int -> (int, int))                           // find_range(date)

  predicate OpenScoring(ctx: Ctx) {
    ctx.scoring == Some("open")
  }

  // ---------------------------------------------------------------------------
  // parse_change

  /** The one call of `change_points` an authorized change makes. */
  datatype PointsChange = PointsChange(
    channel: string, giver: Option<Person>, receiver: Option<Person>, delta: int, note: string)

  /** The variables the change template receives. */
  datatype ChangeView =
    | Unauthorized(receiverName: string)
    | Changed(giver: Option<Person>, receiver: Option<Person>, delta: int)

  datatype ChangeOutcome = ChangeOutcome(
    giver: Option<Person>,
    receiver: Option<Person>,
    created: seq<Person>,           // the people `Person.create` made, in order
    applied: Option<PointsChange>,  // the `change_points` call, if any
    view: ChangeView)

  /** A person looked up by name, or, under open scoring, a new one with the given name. */
  function Resolve(ctx: Ctx, found: Option<Person>, name: string): (r: Option<Person>)
    ensures found.Some? ==> r == found
    ensures found.None? && OpenScoring(ctx) ==> r == Some(Person(ctx.server, name))
    ensures found.None? && !OpenScoring(ctx) ==> r.None?
  {
    if found.None? && OpenScoring(ctx) then Some(Person(ctx.server, name)) else found
  }

  function ParseChange(ctx: Ctx, channel: string, sender: string, victim: string, delta: int, note: string)
    : (r: ChangeOutcome)
    // who takes part: the known person, else a new one under open scoring, else nobody
    ensures ctx.findPerson(sender).Some? ==> r.giver == ctx.findPerson(sender)
    ensures ctx.findPerson(victim).Some? ==> r.receiver == ctx.findPerson(victim)
    ensures r.giver.None? <==> ctx.findPerson(sender).None? && !OpenScoring(ctx)
    ensures r.receiver.None? <==> ctx.findPerson(victim).None? && !OpenScoring(ctx)
    // creation happens only under open scoring, once per missing person, giver first
    ensures !OpenScoring(ctx) ==> r.created == []
    ensures forall p :: p in r.created ==> p.server == ctx.server
    ensures |r.created| ==
      (if ctx.findPerson(sender).None? && OpenScoring(ctx) then 1 else 0) +
      (if ctx.findPerson(victim).None? && OpenScoring(ctx) then 1 else 0)
    ensures ctx.findPerson(sender).None? && OpenScoring(ctx) ==>
      r.created[0] == r.giver.value && r.giver.value.name == sender
    ensures ctx.findPerson(victim).None? && OpenScoring(ctx) ==>
      r.created[|r.created| - 1] == r.receiver.value
      && r.receiver.value.name == ctx.findInChannel(channel, victim)
    // points move exactly when authorized, by the parsed delta, once
    ensures r.applied.Some? <==> ctx.authorized(r.giver, r.receiver)
    ensures r.applied.Some? ==>
      r.applied.value == PointsChange(channel, r.giver, r.receiver, delta, note)
      && r.view == Changed(r.giver, r.receiver, delta)
    // a refusal names the receiver, falling back to the raw victim string
    ensures r.applied.None? ==>
      r.view == Unauthorized(if r.receiver.None? then victim else r.receiver.value.name)
  {
    var giverFound := ctx.findPerson(sender);
    var receiverFound := ctx.findPerson(victim);
    var giver := Resolve(ctx, giverFound, sender);
    var receiver := Resolve(ctx, receiverFound, ctx.findInChannel(channel, victim));
    var created :=
      (if giverFound.None? && giver.Some? then [giver.value] else []) +
      (if receiverFound.None? && receiver.Some? then [receiver.value] else []);
    if !ctx.authorized(giver, receiver) then
      ChangeOutcome(giver, receiver, created, None,
                    Unauthorized(if receiver.None? then victim else receiver.value.name))
    else
      ChangeOutcome(giver, receiver, created, Some(PointsChange(channel, giver, receiver, delta, note)),
                    Changed(giver, receiver, delta))
  }

  /**
   * What `change_points` does with an authorized change between two known
   * people: one score in the channel the command came from.
   */
  function RecordChange(ctx: Ctx, store: Store, c: PointsChange, time: int): (r: Store)
    requires c.giver.Some? && c.receiver.Some?
    ensures ChannelScores(r, ctx.server, c.channel) ==
      ChannelScores(store, ctx.server, c.channel) + [Score(c.giver.value, c.receiver.value, c.delta, time)]
    ensures forall sv, nm :: !(sv == ctx.server && nm == c.channel) ==>
      ChannelScores(r, sv, nm) == ChannelScores(store, sv, nm)
  {
    RecordScore(store, ctx.server, c.channel, Score(c.giver.value, c.receiver.value, c.delta, time))
  }

  /**
   * An authorized change, once recorded, moves the channel's totals by the
   * parsed delta at the receiver and nowhere else: the totals reply before
   * and after agree on every other name, and a receiver new to the channel
   * enters with exactly the delta.
   */
  lemma AppliedChangeMovesTotals(ctx: Ctx, store: Store, sender: string, replyTo: string,
                                 victim: string, delta: int, note: string, time: int)
    requires var r := ParseChange(ctx, replyTo, sender, victim, delta, note);
      r.applied.Some? && r.giver.Some? && r.receiver.Some?
    ensures var r := ParseChange(ctx, replyTo, sender, victim, delta, note);
      var rcv := r.receiver.value.name;
      var before := PointsCommand(ctx, store, sender, replyTo, None).totals;
      var after := PointsCommand(ctx, RecordChange(ctx, store, r.applied.value, time), sender, replyTo, None).totals;
      && Names(after) == Names(before) + {rcv}
      && (forall e, e' :: e in before && e' in after && e.0 == e'.0 ==>
            e'.1 == e.1 + (if e.0 == rcv then delta else 0))
      && (forall e :: e in after && e.0 !in Names(before) ==> e == (rcv, delta))
  {
    var r := ParseChange(ctx, replyTo, sender, victim, delta, note);
    var c := r.applied.value;
    TotalsAfterScore(ChannelScores(store, ctx.server, replyTo), Score(c.giver.value, c.receiver.value, c.delta, time));
  }

  // ---------------------------------------------------------------------------
  // parse_history

  datatype HistoryOutcome =
    | NoHistory(person: string)
    | NoGiverHistory(giverName: string, receiver: Person)
    | ChannelMissing                 // `Channel.named(channel).first` is nil: `chan.scores` raises
    | Shown(receiver: Person, giver: Option<Person>, scores: seq<Score>)

  const HistoryLimit: nat := 5

  /** The date an argument names: none for an empty argument. */
  function DateOf(ctx: Ctx, argument: string): (r: Option<int>)
    ensures r.Some? <==> argument != [] && ctx.parseDate(argument).Some?
    ensures r.Some? ==> r == ctx.parseDate(argument)
  {
    if argument == [] then None else ctx.parseDate(argument)
  }

  /**
   * Which scores a history request asks about, stated on the score's fields:
   * received by `person`, and dated within the argument's range when the
   * argument is a date, or given by the person the argument names otherwise.
   */
  ghost predicate Wanted(ctx: Ctx, argument: string, person: Person, x: Score) {
    && x.receiver == person
    && (argument != [] && ctx.parseDate(argument).Some? ==>
          ctx.findRange(ctx.parseDate(argument).value).0 <= x.time <= ctx.findRange(ctx.parseDate(argument).value).1)
    && (argument != [] && ctx.parseDate(argument).None? ==>
          ctx.findPerson(argument).Some? && x.giver == ctx.findPerson(argument).value)
  }

  /** The scope a request uses, once its subject and giver are known. */
  function HistoryScope(ctx: Ctx, argument: string, person: Person): (f: ScoreFilter)
    requires DateOf(ctx, argument).None? && argument != [] ==> ctx.findPerson(argument).Some?
    ensures forall x :: Admits(f, x) <==> Wanted(ctx, argument, person, x)
  {
    match DateOf(ctx, argument)
    case Some(date) => GivenToBetween(person, ctx.findRange(date).0, ctx.findRange(date).1)
    case None =>
      if argument == [] then GivenTo(person)
      else GivenByTo(ctx.findPerson(argument).value, person)
  }

  /** Whatever is drawn from a selection is drawn from the whole and passes the filter. */
  lemma WithinSelection(all: seq<Score>, f: ScoreFilter, shown: seq<Score>)
    requires multiset(shown) <= multiset(Select(all, f))
    ensures multiset(shown) <= multiset(all)
    ensures forall x :: x in shown ==> Admits(f, x)
    ensures forall x :: Admits(f, x) ==> multiset(Select(all, f))[x] == multiset(all)[x]
  {
    forall x | x in shown ensures Admits(f, x) {
      assert x in multiset(shown);
    }
  }

  /**
   * The query of parse_history: the channel's scores in the request's scope,
   * newest first, at most five. A copy of a wanted score is left out only
   * when five scores at least as new are returned.
   */
  function HistoryScores(ctx: Ctx, argument: string, person: Person, all: seq<Score>): (r: seq<Score>)
    requires DateOf(ctx, argument).None? && argument != [] ==> ctx.findPerson(argument).Some?
    ensures |r| <= HistoryLimit
    ensures Descending(r, TimeOf)
    ensures multiset(r) <= multiset(all)
    ensures forall x :: x in r ==> Wanted(ctx, argument, person, x)
    ensures forall x :: Wanted(ctx, argument, person, x) && multiset(r)[x] < multiset(all)[x] ==>
      |r| == HistoryLimit && forall y :: y in r ==> x.time <= y.time
  {
    var f := HistoryScope(ctx, argument, person);
    var shown := Newest(Select(all, f), HistoryLimit);
    WithinSelection(all, f, shown);
    shown
  }

  function ParseHistory(ctx: Ctx, store: Store, channel: string, subject: string, argument: string)
    : (r: HistoryOutcome)
    ensures r.NoHistory? <==> ctx.findPerson(subject).None?
    ensures r.NoHistory? ==> r.person == subject
    ensures r.NoGiverHistory? <==>
      ctx.findPerson(subject).Some? && DateOf(ctx, argument).None? && argument != []
      && ctx.findPerson(argument).None?
    ensures r.NoGiverHistory? ==> r.giverName == argument && Some(r.receiver) == ctx.findPerson(subject)
    ensures r.ChannelMissing? ==> FirstNamed(store, channel).None?
    ensures r.Shown? ==> FirstNamed(store, channel).Some? && Some(r.receiver) == ctx.findPerson(subject)
    ensures r.Shown? ==> r.giver == if DateOf(ctx, argument).Some? || argument == [] then None
                                    else ctx.findPerson(argument)
    // at most five scores, newest first, each one of this channel's and wanted
    ensures r.Shown? ==> var all := FirstNamed(store, channel).value.scores;
      && |r.scores| <= HistoryLimit
      && Descending(r.scores, TimeOf)
      && multiset(r.scores) <= multiset(all)
      && forall x :: x in r.scores ==> Wanted(ctx, argument, r.receiver, x)
    // a copy of a wanted score is left out only when five scores at least as new are shown
    ensures r.Shown? ==> var all := FirstNamed(store, channel).value.scores;
      forall x :: Wanted(ctx, argument, r.receiver, x) && multiset(r.scores)[x] < multiset(all)[x] ==>
        |r.scores| == HistoryLimit && forall y :: y in r.scores ==> x.time <= y.time
  {
    match ctx.findPerson(subject)
    case None => NoHistory(subject)
    case Some(person) =>
      if DateOf(ctx, argument).None? && argument != [] && ctx.findPerson(argument).None? then
        NoGiverHistory(argument, person)
      else
        match FirstNamed(store, channel)
        case None => ChannelMissing
        case Some(chan) =>
          var giver := if DateOf(ctx, argument).Some? || argument == [] then None else ctx.findPerson(argument);
          Shown(person, giver, HistoryScores(ctx, argument, person, chan.scores))
  }

  // ---------------------------------------------------------------------------
  // points_command

  datatype Response =
    | TotalsReply(totals: Tally)
    | HistoryReply(history: HistoryOutcome)
    | ChangeReply(change: ChangeOutcome)
    | UsageReply

  /**
   * `points_command` for a message sent by `sender` to `replyTo`: totals for
   * no text, else the history, change or usage branch the message selects.
   */
  function PointsCommand(ctx: Ctx, store: Store, sender: string, replyTo: string, msg: Option<string>)
    : (r: Response)
    ensures r.TotalsReply? <==> msg.None? || msg.value == []
    ensures r.HistoryReply? <==> msg.Some? && msg.value != [] && HistoryForm(msg.value, ctx.stemNick)
    ensures r.ChangeReply? <==>
      msg.Some? && msg.value != [] && !HistoryForm(msg.value, ctx.stemNick) && ChangeForm(msg.value, ctx.leafNick)
    ensures r.UsageReply? <==>
      msg.Some? && msg.value != [] && !HistoryForm(msg.value, ctx.stemNick) && !ChangeForm(msg.value, ctx.leafNick)
    // the totals are this channel's per-receiver sums, ranked
    ensures r.TotalsReply? ==> var scores := ChannelScores(store, ctx.server, replyTo);
      && Descending(r.totals, TotalOf)
      && Names(r.totals) == Receivers(scores)
      && (forall i :: 0 <= i < |r.totals| ==> r.totals[i].1 == Received(scores, r.totals[i].0))
      && SumBy(r.totals, TotalOf) == TotalChange(scores)
    // a change carries the signed number written after the victim
    ensures r.ChangeReply? ==> var m := msg.value;
      exists k: nat, j: nat, d: nat :: ChangeShape(m, ctx.leafNick, k, j, d)
        && d == SpanDigits(m, j + 1) && SignedNumeral(m[j..d])
        && r.change == ParseChange(ctx, replyTo, sender, m[..k], ParseSigned(m[j..d]), LineRest(m, SpanSpaces(m, d)))
    ensures r.HistoryReply? ==> var m := msg.value;
      exists k: nat, j: nat :: HistoryShape(m, ctx.stemNick, k, j)
        && r.history == ParseHistory(ctx, store, replyTo, m[..k], LineRest(m, SpanSpaces(m, j + 7)))
  {
    match Classify(msg, ctx.stemNick, ctx.leafNick)
    case ShowTotals => TotalsReply(Totals(ChannelScores(store, ctx.server, replyTo)))
    case History(subject, argument) => HistoryReply(ParseHistory(ctx, store, replyTo, subject, argument))
    case Change(victim, delta, note) => ChangeReply(ParseChange(ctx, replyTo, sender, victim, delta, note))
    case Usage => UsageReply
  }
}

=== FILE: scores.dfy ===
/**
 * The Scorekeeper's score records and the pure computations over them:
 * per-person point totals (`points`), their ranking (`totals`) and the
 * newest-first score queries of the history command.
 */
module Scores {
  import opened Base
  import opened Sorting

  /** A person on a server (the Person model, by identity). */
  datatype Person = Person(server: string, name: string)

  /** One change of points; `time` orders scores, newest largest. */
  datatype Score = Score(giver: Person, receiver: Person, change: int, time: int)

  /** A channel on a server owning its scores (the Channel model). */
  datatype Channel = Channel(server: string, name: string, scores: seq<Score>)

  /** The datastore as the controller sees it. */
  datatype Store = Store(channels: seq<Channel>)

  // ---------------------------------------------------------------------------
  // Channels

  /** `c` is the channel with this server and name. */
  predicate IsChannel(c: Channel, server: string, name: string) {
    c.server == server && c.name == name
  }

  /** Position `i` holds the first channel with this server and name. */
  predicate FirstMatch(store: Store, server: string, name: string, i: int) {
    && 0 <= i < |store.channels|
    && IsChannel(store.channels[i], server, name)
    && forall j :: 0 <= j < i ==> !IsChannel(store.channels[j], server, name)
  }

  /** The scores of the channel `Channel.find_or_create` returns; a new channel has none. */
  function ChannelScores(store: Store, server: string, name: string): (r: seq<Score>)
    ensures (forall c :: c in store.channels ==> !IsChannel(c, server, name)) ==> r == []
    ensures forall i :: FirstMatch(store, server, name, i) ==> r == store.channels[i].scores
    decreases |store.channels|
  {
    if store.channels == [] then []
    else
      var c := store.channels[0];
      if IsChannel(c, server, name) then c.scores
      else
        var rest := Store(store.channels[1..]);
        assert forall i :: 0 < i < |store.channels| ==> store.channels[i] == rest.channels[i - 1];
        ChannelScores(rest, server, name)
  }

  /**
   * Records `s` in the channel with this server and name, creating the
   * channel when there is none (`Channel.find_or_create` followed by adding
   * one score). No other channel changes.
   */
  function RecordScore(store: Store, server: string, name: string, s: Score): (r: Store)
    ensures ChannelScores(r, server, name) == ChannelScores(store, server, name) + [s]
    ensures forall sv, nm :: !(sv == server && nm == name) ==> ChannelScores(r, sv, nm) == ChannelScores(store, sv, nm)
    decreases |store.channels|
  {
    if store.channels == [] then Store([Channel(server, name, [s])])
    else
      var c := store.channels[0];
      if IsChannel(c, server, name) then Store([c.(scores := c.scores + [s])] + store.channels[1..])
      else
        var rest := RecordScore(Store(store.channels[1..]), server, name, s);
        Store([c] + rest.channels)
  }

  /** Position `i` holds the first channel with this name, on any server. */
  predicate FirstOfName(store: Store, name: string, i: int) {
    && 0 <= i < |store.channels|
    && store.channels[i].name == name
    && forall j :: 0 <= j < i ==> store.channels[j].name != name
  }

  /** `Channel.named(name).first`: the first channel of that name on any server. */
  function FirstNamed(store: Store, name: string): (r: Option<Channel>)
    ensures r.None? <==> forall c :: c in store.channels ==> c.name != name
    ensures r.Some? ==> r.value in store.channels && r.value.name == name
    ensures r.Some? ==> exists i :: FirstOfName(store, name, i) && store.channels[i] == r.value
    decreases |store.channels|
  {
    if store.channels == [] then None
    else if store.channels[0].name == name then
      assert FirstOfName(store, name, 0);
      Some(store.channels[0])
    else
      var rest := Store(store.channels[1..]);
      var r := FirstNamed(rest, name);
      assert r.Some? ==> exists i :: FirstOfName(store, name, i) && store.channels[i] == r.value by {
        if r.Some? {
          var i :| FirstOfName(rest, name, i) && rest.channels[i] == r.value;
          assert FirstOfName(store, name, i + 1);
        }
      }
      r
  }

  /**
   * When the first channel of a name is on this server, the lookup by name
   * and the lookup by server and name read the same scores.
   */
  lemma NamedIsServerChannel(store: Store, server: string, name: string)
    requires FirstNamed(store, name).Some? && FirstNamed(store, name).value.server == server
    ensures FirstNamed(store, name).value.scores == ChannelScores(store, server, name)
  {
    var i :| FirstOfName(store, name, i) && store.channels[i] == FirstNamed(store, name).value;
    assert FirstMatch(store, server, name, i);
  }

  // ---------------------------------------------------------------------------
  // points: a Hash.new(0) from receiver name to summed change, in insertion order

  type Tally = seq<(string, int)>

  function TotalOf(entry: (string, int)): int {
    entry.1
  }

  /** The names a tally has entries for. */
  function Names(t: Tally): set<string> {
    set e | e in t :: e.0
  }

  /** No name has two entries. */
  ghost predicate DistinctNames(t: Tally) {
    forall i, j :: 0 <= i < j < |t| ==> t[i].0 != t[j].0
  }

  /** `hsh[name]` of a `Hash.new(0)`: the entry's value, 0 when there is none. */
  function Get(t: Tally, name: string): (v: int)
    ensures name !in Names(t) ==> v == 0
  {
    if t == [] then 0 else if t[0].0 == name then t[0].1 else Get(t[1..], name)
  }

  /** A tally is its first entry followed by the rest, as far as names, lookups and distinctness go. */
  lemma TallyCons(e: (string, int), t: Tally)
    ensures Names([e] + t) == {e.0} + Names(t)
    ensures forall n :: Get([e] + t, n) == if e.0 == n then e.1 else Get(t, n)
    ensures DistinctNames([e] + t) <==> DistinctNames(t) && e.0 !in Names(t)
    ensures SumBy([e] + t, TotalOf) == e.1 + SumBy(t, TotalOf)
  {
    var r := [e] + t;
    assert r[1..] == t;
    if DistinctNames(r) {
      forall i, j | 0 <= i < j < |t|
        ensures t[i].0 != t[j].0
      {
        assert t[i] == r[i + 1] && t[j] == r[j + 1];
      }
    }
    if DistinctNames(t) && e.0 !in Names(t) {
      forall i, j | 0 <= i < j < |r|
        ensures r[i].0 != r[j].0
      {
        assert r[j] == t[j - 1] && r[j] in t;
        if i > 0 {
          assert r[i] == t[i - 1];
        }
      }
    }
  }

  /** `hsh[name] += delta`: a new name is appended with `0 + delta`. */
  function Bump(t: Tally, name: string, delta: int): (r: Tally)
    requires DistinctNames(t)
    ensures DistinctNames(r)
    ensures Names(r) == Names(t) + {name}
    ensures forall n :: Get(r, n) == Get(t, n) + (if n == name then delta else 0)
    ensures SumBy(r, TotalOf) == SumBy(t, TotalOf) + delta
  {
    if t == [] then
      TallyCons((name, delta), []);
      [(name, delta)]
    else
      assert t == [t[0]] + t[1..];
      TallyCons(t[0], t[1..]);
      if t[0].0 == name then
        TallyCons((name, t[0].1 + delta), t[1..]);
        [(name, t[0].1 + delta)] + t[1..]
      else
        var rest := Bump(t[1..], name, delta);
        TallyCons(t[0], rest);
        [t[0]] + rest
  }

  /** The names that received at least one score. */
  function Receivers(scores: seq<Score>): set<string> {
    set s | s in scores :: s.receiver.name
  }

  /** Reference definition: the sum of the changes `name` received. */
  function Received(scores: seq<Score>, name: string): int {
    if scores == [] then 0
    else
      var last := scores[|scores| - 1];
      Received(scores[..|scores| - 1], name) + (if last.receiver.name == name then last.change else 0)
  }

  /** The sum of every change in `scores`. */
  function TotalChange(scores: seq<Score>): int {
    if scores == [] then 0 else TotalChange(scores[..|scores| - 1]) + scores[|scores| - 1].change
  }

  /**
   * `points`: folds the scores into a tally, one entry per receiver holding
   * the sum of what that receiver got. The tally conserves points: its values
   * add up to the sum of all changes.
   */
  function Points(scores: seq<Score>): (r: Tally)
    ensures DistinctNames(r)
    ensures Names(r) == Receivers(scores)
    ensures forall n :: Get(r, n) == Received(scores, n)
    ensures SumBy(r, TotalOf) == TotalChange(scores)
  {
    if scores == [] then []
    else
      var init := scores[..|scores| - 1];
      var last := scores[|scores| - 1];
      assert scores == init + [last];
      assert Receivers(scores) == Receivers(init) + {last.receiver.name};
      Bump(Points(init), last.receiver.name, last.change)
  }

  /** The value stored with a name is the one Get finds. */
  lemma GetEntry(t: Tally, i: nat)
    requires DistinctNames(t) && i < |t|
    ensures Get(t, t[i].0) == t[i].1
  {
    if i > 0 {
      GetEntry(t[1..], i - 1);
    }
  }

  /**
   * `totals`: the entries of `points`, ranked by total, largest first. Every
   * receiver appears with the sum of what it received, and the totals still
   * add up to the sum of all changes.
   */
  function Totals(scores: seq<Score>): (r: Tally)
    ensures multiset(r) == multiset(Points(scores))
    ensures Descending(r, TotalOf)
    ensures Names(r) == Receivers(scores)
    ensures forall i :: 0 <= i < |r| ==> r[i].1 == Received(scores, r[i].0)
    ensures SumBy(r, TotalOf) == TotalChange(scores)
  {
    var p := Points(scores);
    var r := SortDesc(p, TotalOf);
    assert forall e :: e in r <==> e in p by {
      forall e ensures e in r <==> e in p {
        assert e in r <==> e in multiset(r);
        assert e in p <==> e in multiset(p);
      }
    }
    forall i | 0 <= i < |r|
      ensures r[i].1 == Received(scores, r[i].0)
    {
      assert r[i] in p;
      var j :| 0 <= j < |p| && p[j] == r[i];
      GetEntry(p, j);
    }
    r
  }

  /** Every entry of the ranked totals holds the sum its name received. */
  lemma TotalsEntry(scores: seq<Score>, e: (string, int))
    requires e in Totals(scores)
    ensures e.1 == Received(scores, e.0)
  {
    var t := Totals(scores);
    var i :| 0 <= i < |t| && t[i] == e;
  }

  /** One more score adds its change to its receiver's sum only. */
  lemma ReceivedAppend(scores: seq<Score>, s: Score, name: string)
    ensures Received(scores + [s], name) == Received(scores, name) + (if name == s.receiver.name then s.change else 0)
  {
    assert (scores + [s])[..|scores|] == scores;
  }

  /** A name that never received a score has received nothing. */
  lemma NotReceived(scores: seq<Score>, name: string)
    requires name !in Receivers(scores)
    ensures Received(scores, name) == 0
  {
    assert Get(Points(scores), name) == Received(scores, name);
  }

  /**
   * Recording one more score changes the ranked totals only at its receiver:
   * every name keeps its total except the receiver's, which moves by the
   * change, and a receiver new to the channel enters with exactly the change.
   */
  lemma TotalsAfterScore(scores: seq<Score>, s: Score)
    ensures var before := Totals(scores);
      var after := Totals(scores + [s]);
      && Names(after) == Names(before) + {s.receiver.name}
      && (forall e, e' :: e in before && e' in after && e.0 == e'.0 ==>
            e'.1 == e.1 + (if e.0 == s.receiver.name then s.change else 0))
      && (forall e :: e in after && e.0 !in Names(before) ==> e == (s.receiver.name, s.change))
  {
    assert Receivers(scores + [s]) == Receivers(scores) + {s.receiver.name};
    forall e, e' | e in Totals(scores) && e' in Totals(scores + [s]) && e.0 == e'.0
      ensures e'.1 == e.1 + (if e.0 == s.receiver.name then s.change else 0)
    {
      TotalsEntry(scores, e);
      TotalsEntry(scores + [s], e');
      ReceivedAppend(scores, s, e.0);
    }
    forall e | e in Totals(scores + [s]) && e.0 !in Names(Totals(scores))
      ensures e == (s.receiver.name, s.change)
    {
      NewReceiverEntry(scores, s, e);
    }
  }

  /** An entry of the new totals whose name had no total before is the new score's receiver with its change. */
  lemma NewReceiverEntry(scores: seq<Score>, s: Score, e: (string, int))
    requires e in Totals(scores + [s]) && e.0 !in Names(Totals(scores))
    ensures e == (s.receiver.name, s.change)
  {
    var more := scores + [s];
    assert e.0 in Receivers(more);
    var x :| x in more && x.receiver.name == e.0;
    assert x !in scores;
    assert e.0 == s.receiver.name;
    TotalsEntry(more, e);
    NotReceived(scores, e.0);
    ReceivedAppend(scores, s, e.0);
  }

  // ---------------------------------------------------------------------------
  // The score scopes of the history command, newest first, limited

  function TimeOf(s: Score): int {
    s.time
  }

  /** The conditions `given_to`, `between` and `given_by` put on a score. */
  datatype ScoreFilter =
    | GivenTo(receiver: Person)
    | GivenToBetween(receiver: Person, start: int, stop: int)
    | GivenByTo(giver: Person, receiver: Person)

  predicate Admits(f: ScoreFilter, s: Score) {
    match f
    case GivenTo(p) => s.receiver == p
    case GivenToBetween(p, start, stop) => s.receiver == p && start <= s.time <= stop
    case GivenByTo(g, p) => s.giver == g && s.receiver == p
  }

  /** The scores a filter admits, in their original order. */
  function Select(scores: seq<Score>, f: ScoreFilter): (r: seq<Score>)
    ensures forall x :: multiset(r)[x] == if Admits(f, x) then multiset(scores)[x] else 0
    ensures forall x :: x in r <==> x in scores && Admits(f, x)
  {
    if scores == [] then []
    else
      assert scores == [scores[0]] + scores[1..];
      (if Admits(f, scores[0]) then [scores[0]] else []) + Select(scores[1..], f)
  }

  /** In a newest-first sequence, whatever lies beyond the first `n` is no newer than those. */
  lemma BeyondPrefixIsOlder(sorted: seq<Score>, n: nat, x: Score)
    requires n <= |sorted| && Descending(sorted, TimeOf)
    requires x in sorted[n..]
    ensures n < |sorted|
    ensures forall y :: y in sorted[..n] ==> x.time <= y.time
  {
    var k :| n <= k < |sorted| && sorted[k] == x;
    forall y | y in sorted[..n]
      ensures x.time <= y.time
    {
      var j :| 0 <= j < n && sorted[..n][j] == y;
      assert sorted[j] == y;
    }
  }

  /** A prefix of a newest-first ordering of `pool` keeps what Newest promises. */
  lemma NewestPrefix(pool: seq<Score>, sorted: seq<Score>, n: nat, limit: nat)
    requires multiset(sorted) == multiset(pool) && Descending(sorted, TimeOf)
    requires n == if |pool| < limit then |pool| else limit
    ensures n <= |sorted|
    ensures multiset(sorted[..n]) <= multiset(pool)
    ensures Descending(sorted[..n], TimeOf)
    ensures forall x :: multiset(sorted[..n])[x] < multiset(pool)[x] ==>
      n == limit && forall y :: y in sorted[..n] ==> x.time <= y.time
  {
    assert |sorted| == |multiset(sorted)| == |pool|;
    var r := sorted[..n];
    assert sorted == r + sorted[n..];
    assert multiset(sorted) == multiset(r) + multiset(sorted[n..]);
    forall x | multiset(r)[x] < multiset(pool)[x]
      ensures n == limit && forall y :: y in r ==> x.time <= y.time
    {
      assert x in multiset(sorted[n..]);
      BeyondPrefixIsOlder(sorted, n, x);
    }
  }

  /**
   * `newest_first.all(:limit => limit)`: the `limit` newest scores of `pool`,
   * newest first. A copy of a score is left out only when `limit` scores at
   * least as new were taken.
   */
  function Newest(pool: seq<Score>, limit: nat): (r: seq<Score>)
    ensures |r| == if |pool| < limit then |pool| else limit
    ensures multiset(r) <= multiset(pool)
    ensures Descending(r, TimeOf)
    ensures forall x :: multiset(r)[x] < multiset(pool)[x] ==> |r| == limit && forall y :: y in r ==> x.time <= y.time
  {
    var sorted := SortDesc(pool, TimeOf);
    var n := if |pool| < limit then |pool| else limit;
    NewestPrefix(pool, sorted, n, limit);
    sorted[..n]
  }
}

=== FILE: sorting.dfy ===
/**
 * Ordering a sequence by an integer key, largest first.
 *
 * Ruby's `sort` with a block is not stable, so callers may rely only on the
 * result being a permutation of the input ordered by the key; insertion sort
 * is one algorithm with exactly those guarantees.
 */
module Sorting {

  /** `s` is ordered by `key`, largest first. */
  ghost predicate Descending<T>(s: seq<T>, key: T -> int) {
    forall i, j :: 0 <= i < j < |s| ==> key(s[i]) >= key(s[j])
  }

  /** No element of `s` has a key above `bound`. */
  ghost predicate AllAtMost<T>(s: seq<T>, key: T -> int, bound: int) {
    forall i :: 0 <= i < |s| ==> key(s[i]) <= bound
  }

  /** The sum of the keys of `s`. */
  function SumBy<T>(s: seq<T>, key: T -> int): int {
    if s == [] then 0 else key(s[0]) + SumBy(s[1..], key)
  }

  /** A sequence with the same elements as `b` plus `x` inherits any upper bound they share. */
  lemma BoundSurvivesInsert<T>(a: seq<T>, b: seq<T>, x: T, key: T -> int, bound: int)
    requires multiset(a) == multiset(b) + multiset{x}
    requires AllAtMost(b, key, bound)
    requires key(x) <= bound
    ensures AllAtMost(a, key, bound)
  {
    forall i | 0 <= i < |a|
      ensures key(a[i]) <= bound
    {
      assert a[i] in multiset(a);
      if a[i] != x {
        assert a[i] in multiset(b);
        var j :| 0 <= j < |b| && b[j] == a[i];
      }
    }
  }

  /** Prepending an element no smaller than every key keeps a sequence descending. */
  lemma DescendingCons<T>(h: T, s: seq<T>, key: T -> int)
    requires Descending(s, key) && AllAtMost(s, key, key(h))
    ensures Descending([h] + s, key)
  {
    var r := [h] + s;
    forall i, j | 0 <= i < j < |r|
      ensures key(r[i]) >= key(r[j])
    {
      assert r[j] == s[j - 1];
      if i > 0 {
        assert r[i] == s[i - 1];
      }
    }
  }

  /** The head of a descending sequence bounds the rest. */
  lemma HeadBoundsTail<T>(s: seq<T>, key: T -> int)
    requires Descending(s, key) && |s| > 0
    ensures Descending(s[1..], key) && AllAtMost(s[1..], key, key(s[0]))
  {
  }

  lemma SumByCons<T>(h: T, s: seq<T>, key: T -> int)
    ensures SumBy([h] + s, key) == key(h) + SumBy(s, key)
  {
    assert ([h] + s)[1..] == s;
  }

  /** Places `x` into the descending sequence `s`. */
  function Insert<T>(x: T, s: seq<T>, key: T -> int): (r: seq<T>)
    requires Descending(s, key)
    ensures multiset(r) == multiset(s) + multiset{x}
    ensures Descending(r, key)
    ensures SumBy(r, key) == SumBy(s, key) + key(x)
    ensures |r| == |s| + 1
  {
    if s == [] then [x]
    else if key(x) >= key(s[0]) then
      HeadBoundsTail(s, key);
      assert AllAtMost(s, key, key(x));
      DescendingCons(x, s, key);
      SumByCons(x, s, key);
      [x] + s
    else
      HeadBoundsTail(s, key);
      var rest := Insert(x, s[1..], key);
      assert s == [s[0]] + s[1..];
      BoundSurvivesInsert(rest, s[1..], x, key, key(s[0]));
      DescendingCons(s[0], rest, key);
      SumByCons(s[0], rest, key);
      SumByCons(s[0], s[1..], key);
      [s[0]] + rest
  }

  /** Orders `s` by `key`, largest first. */
  function SortDesc<T>(s: seq<T>, key: T -> int): (r: seq<T>)
    ensures multiset(r) == multiset(s)
    ensures Descending(r, key)
    ensures SumBy(r, key) == SumBy(s, key)
    ensures |r| == |s|
  {
    if s == [] then []
    else
      assert s == [s[0]] + s[1..];
      Insert(s[0], SortDesc(s[1..], key), key)
  }
}
